=== FILE: README.md ===
# Fibonacci heap, modelled in Dafny

This project models the `FibonacciHeap` class of `fib_heaps.cpp`. It is a
mergeable min-priority queue over C++ `int` keys, supporting `insert`,
`find_min`, `extract_min`, `decrease_key`, `delete_node` and `union_with`.
The roots form a circular sibling ring with `min` on a root of least key.
`extract_min` promotes the removed node's children to roots and then runs
`consolidate`. `consolidate` links roots of equal degree with
`fib_heap_link` until each degree occurs once. `decrease_key` restores heap
order with `cut` and `cascading_cut`.

The model is functional:

- A node is `Tree(key, degree, mark, children)`. `children` is its child
  ring read from `parent->child`.
- The heap is `Heap(roots, n)`. `roots` is the root ring read from `min`, so
  `roots[0]` is the node `min` points at.
- Splicing a node to the left of a ring's representative appends it.
  Moving the representative (`min = node`, `x->child = y`) rotates the
  sequence so that the node comes first.
- `parent` pointers are implicit: a tree in a `children` sequence has that
  parent, and a tree in `roots` has none.
- A node inside the forest is addressed by a path of child indices
  (`Paths`).
- Thrown `runtime_error`s become `Failure(EmptyHeap)` and
  `Failure(InvalidDecrease)`.

The abstract content of a heap is the multiset of its keys (`Contents`).
Every operation is stated against it. Alongside that, every operation
keeps the invariant `Valid`, which says:

- heap order holds in every tree;
- `degree` equals the number of children;
- `min` is a least root;
- `n` is the number of nodes.

Files:

- `outcomes.dfy`: `Option`, `Result` and the error kinds.
- `trees.dfy`: nodes, rings, the key multiset, the invariants and the
  splice-left-of-representative step.
- `paths.dfy`: addressing and rebuilding a node inside the forest.
- `consolidate.dfy`: `calculate_degree`, `fib_heap_link` and
  `consolidate`.
- `cuts.dfy`: the locate step of `find_and_decrease_key`, `cut`,
  `cascading_cut` and the key decrease itself.
- `heap.dfy`: the public operations.

## Model

| member | source | states |
|---|---|---|
| Trees.SpliceMin | fib_heaps.cpp:75-86 | Splicing a node into a ring adds exactly that node and its keys. The node goes in left of the old representative: read from the representative, it is first or last. It becomes the representative exactly when the ring was empty or its key is strictly below the old representative's; on a tie the old representative stays. A ring whose representative was least keeps that property. |
| Trees.ForestSizeIsKeyCount | fib_heaps.cpp:25 | The number of nodes in a ring of trees equals the number of keys it stores, so `n` can be read off the key multiset. |
| Trees.MinFirstIsLeast | fib_heaps.cpp:90-95 | In a heap-ordered ring whose representative is a least root, that representative holds the least key of the whole forest. |
| Trees.KeysAbove | fib_heaps.cpp:143-150 | Heap order: a well-formed tree holds no key below its root's key. |
| Consolidation.CalculateDegree | fib_heaps.cpp:118-125 | The halving loop returns the bit length of `n`: 0 when `n <= 0`, otherwise the `c` with `2^(c-1) <= n < 2^c`. |
| Consolidation.Link | fib_heaps.cpp:174-198 | Linking `y` under `x` keeps `x`'s key and mark and raises its degree by one. `y` joins `x`'s child ring left of `x->child`, and the others stay. `y` becomes `x->child` exactly when `x` had no child or `y`'s key is strictly below the old `x->child`'s. The keys are the union of both trees' keys. The result is heap ordered when `x.key <= y.key`. |
| Consolidation.LinkPair | fib_heaps.cpp:143-147 | When `current` meets the tree already in its slot, the root of smaller key survives, and on a tie `current` stays the parent. The survivor keeps its own mark, gains one degree and keeps all its children, with the other root added among them. The keys are the union of both trees' keys, and heap order is kept. |
| Consolidation.PlaceProps | fib_heaps.cpp:142-152 | The inner linking loop keeps "slot `i` holds a heap-ordered tree of degree `i`". The slots gain exactly the placed tree's keys. |
| Consolidation.FoldProps | fib_heaps.cpp:141-153 | Placing every root of the snapshot keeps the slot invariant, and the slots end up with exactly the roots' keys. |
| Consolidation.RebuildProps | fib_heaps.cpp:155-171 | The rebuilt root ring holds exactly the occupied slots' keys. It is heap ordered, its least root comes first and no two roots share a degree. |
| Consolidation.Consolidate | fib_heaps.cpp:127-172 | Consolidation keeps the key multiset and heap order. It leaves at most one root per degree with `min` on a least root, and the result is empty exactly when the input ring was empty. |
| Cuts.LocateForest | fib_heaps.cpp:240-265 | The search finds a path to a node holding the key if and only if the key is somewhere in the forest. |
| Cuts.LocateTree | fib_heaps.cpp:245-262 | On one tree, a root holding the key is answered with the empty path. Otherwise the answer is a path into its children that leads to the key. Nothing is found exactly when the tree does not hold the key. |
| Cuts.LocateForestFirst | fib_heaps.cpp:243-264 | The node found is the first one holding the key in the scan's order. No node holding the key comes before it in depth-first preorder from the representative: a node before its children, and a root's whole subtree before the roots to its right. |
| Cuts.LocateTreeFirst | fib_heaps.cpp:245-262 | Below one tree, no child-side node holding the key comes before the one found in depth-first preorder. |
| Cuts.RemoveChild | fib_heaps.cpp:268-278 | The parent loses exactly one child and one degree. `parent->child` becomes empty for a sole child and moves to the right sibling when the representative leaves. The parent's keys shrink by the removed subtree's keys, and heap order is kept. |
| Cuts.MarkAt | fib_heaps.cpp:290-291 | Marking a node sets its mark and changes nothing else. Every node of the forest keeps its key, its degree and its place, and every other node keeps its mark. The trees not holding the node are the same values, and the keys and invariants are unchanged. |
| Cuts.Cut | fib_heaps.cpp:267-285 | The cut node, unmarked, becomes the new root left of `min`. Its parent is the parent minus that child. Every ancestor above the parent keeps its key, degree and mark, and every child except the one on the path to the cut node. Other trees are unchanged, root keys are unchanged, the keys are unchanged and heap order is kept. |
| Cuts.CascadingCut | fib_heaps.cpp:287-297 | The whole result is fixed by the forest before the walk. A root stops the walk with nothing changed, and an unmarked non-root is marked with nothing else changed. Otherwise the run of consecutive marked non-roots from the node upwards (`MarkedRun`) is cut. These nodes become the new roots in order from the node upwards, each unmarked, and each above the first without the child cut from it. In the old roots (`AfterRun`), only the first node above the run changes: it loses the child the run started from and, unless it is a root, ends marked. Root keys and the key multiset are unchanged, heap order is kept, and every new root is at least the key of the tree it came from. |
| Cuts.CascadeCases | fib_heaps.cpp:289-295 | One step on a non-root: an unmarked node is marked and nothing else changes (the result is exactly `MarkAt`). A marked node becomes the next root, unmarked. |
| Cuts.CascadeTop | fib_heaps.cpp:292-294 | Cutting a marked node and then running the cascade from its parent leaves the old roots as `AfterRun` read off the forest before the cut. The cut's change to the parent is overwritten when the parent is cut in turn. |
| Cuts.CascadeStep | fib_heaps.cpp:292-294 | Cutting a marked node and then running the cascade from its parent in the cut forest gives exactly the run read off the forest before the cut. The run is one node longer, and its later roots are the inner run's roots. |
| Cuts.Rotate | fib_heaps.cpp:255-257 | Pointing `min` at another root keeps the ring's trees, their cyclic order and the keys: the result reads the ring from position `j` to its end and then from its start up to `j`. It yields a least-first ring when that root is least. |
| Cuts.MinUpdate | fib_heaps.cpp:255-257 | Given that every other root is at least the representative, the conditional `min` move yields a least-first ring whose first key is the smaller of the two. |
| Cuts.DecreasedProps | fib_heaps.cpp:249 | Lowering a node's key keeps its subtree heap ordered, and trades one occurrence of the old key for the new one. |
| Cuts.CutAfterDecrease | fib_heaps.cpp:249-253 | Cutting the node after rewriting its key equals cutting it first and rewriting the key of the new root. The cut never reads the key. |
| Cuts.DecreaseAtRoot | fib_heaps.cpp:249-257 | Decreasing a root keeps the invariants, and the least key becomes the smaller of the old least key and the new key. |
| Cuts.DecreaseAtInPlace | fib_heaps.cpp:249-258 | Decreasing a non-root that stays at or above its parent's key keeps the invariants and the least key. |
| Cuts.DecreaseAtWithCut | fib_heaps.cpp:251-257 | Decreasing below the parent's key, then cut, cascading cut and the `min` move, keeps the invariants. The least key becomes min(old least, new key). |
| Cuts.CutOfDecreased | fib_heaps.cpp:251-252 | After the cut of the decreased node, the forest is heap ordered, the old roots keep their keys and the node is the new last root holding the new key. |
| Cuts.RootsAfterCascade | fib_heaps.cpp:252-257 | After the cascading cut, the old `min` keeps its key, the decreased node holds the new key, and every other root is at least the old least key. |
| Cuts.DecreaseAtProps | fib_heaps.cpp:249-258 | Rewriting a located key to a smaller one keeps all heap invariants and replaces one occurrence of the old key by the new one. `min` ends on the smaller of the old least key and the new key. |
| FibHeap.CountIsSize | fib_heaps.cpp:25-26 | In a valid heap, `n` is the number of stored keys, and `n` is 0 exactly when `min` is null. |
| FibHeap.EmptyIsValid | fib_heaps.cpp:37 | The constructed heap is valid and holds no key. |
| FibHeap.Insert | fib_heaps.cpp:72-88 | Insertion keeps the invariants, adds exactly `val` to the keys and raises `n` by one. On an empty heap the new node is the only root. Otherwise the least key becomes min(old least, `val`). |
| FibHeap.FindMin | fib_heaps.cpp:90-95 | Fails with `EmptyHeap` exactly when the heap is empty, and otherwise returns the least key in the heap. |
| FibHeap.PromoteChildren | fib_heaps.cpp:205-220 | Read from `min`'s right sibling, the new ring is the other roots in order followed by the removed node's children in their ring order, since each child is spliced in left of `min`. The ring holds all keys but the removed node's own, and heap order is kept. |
| FibHeap.ExtractMin | fib_heaps.cpp:200-231 | Fails with `EmptyHeap` exactly when the heap is empty. Otherwise it returns the least key and removes exactly one occurrence of it. `n` drops by one, the invariants hold, and no two roots share a degree. |
| FibHeap.DecreaseKey | fib_heaps.cpp:234-265 | An absent key changes nothing. A present key with a larger new key fails with `InvalidDecrease` and changes nothing. Otherwise one occurrence of the old key becomes the new key, `n` is unchanged, the invariants hold and the least key becomes min(old least, new key). |
| FibHeap.DecreaseFound | fib_heaps.cpp:245-258 | Once located, a decrease yields a valid heap with one old key traded for the new one and `min` on min(old least, new key). |
| FibHeap.Delete | fib_heaps.cpp:299-302 | Fails with `EmptyHeap` on an empty heap. When the key is present, exactly one occurrence of it is removed, whether or not `INT_MIN` is also stored. When it is absent, the least key is removed instead. `n` drops by one and the invariants hold. |
| FibHeap.Union | fib_heaps.cpp:304-325 | An empty `other` changes nothing. Otherwise `other` is left empty, the keys and counts add up, the invariants hold, and the least key is the smaller of the two minima. |
| FibHeap.SpliceRings | fib_heaps.cpp:310-320 | Splicing one ring into another right of `min` keeps both rings' keys and heap order. Read from the new `min`, the ring has its least root first. |
| FibHeap.Drain | fib_heaps.cpp:200-231 | Extracting until empty lists exactly the heap's keys, in ascending order. |

## Left out

- The command-line menu (`main`), `print_heap`/`print_heap_recursive` and the console line printed by `extract_min` are console I/O.
- `cleanup`, the destructor and the extracted node returned to the caller (and leaked) are memory management with no observable behaviour in the model. `ExtractMin` returns the removed key instead of the node.
- Amortized costs and the potential-function argument are not modelled: nothing in the code promises them per call.
- `parent` pointers and the `left`/`right` sibling pointers are not stored. The ring order is kept by the sequences, and `parent` is implied by position.
- The `min = x` write inside `fib_heap_link` (fib_heaps.cpp:178-179) is not modelled. `consolidate` resets and recomputes `min` afterwards, so it has no effect.
- `fib_heap_link` leaves the linked node's mark as it was (fib_heaps.cpp:182-183), and `extract_min`'s promotion keeps each child's mark (fib_heaps.cpp:214). So a root can be marked, and "roots are unmarked" is not stated.
- `decrease_key` on an absent key returns without error (fib_heaps.cpp:234-265), and the model does the same.
- After a match found below a node, the source's scan goes on through the remaining siblings (fib_heaps.cpp:260-263). Each enclosing scan that resumes can decrease one more node holding the same key, so one or more further nodes may be decreased. The model decreases only the first match in preorder.
- FibHeap.DecreaseKey: always returns, but `decrease_key` may not terminate when `new_key < old_key`. A cascading cut can move a node whose sibling ring an enclosing scan is walking onto the root ring (fib_heaps.cpp:292-293, 279-282). That scan then follows the root ring from `min`, and stops only at another node holding `old_key` or at its own start node, which is not on the root ring (fib_heaps.cpp:243-264). Example: R has child A, whose children are C (the representative) and B, where B is marked and has child T. Decreasing T below B's key, with no other node holding T's old key, cuts T and then B, and the scan of A's children never returns to C. This non-termination is not modelled.
- Consolidation.PlaceProps: states the slot invariant and the keys of the whole chain of links. The choice of parent at each link, including the tie rule, is stated one link at a time by Consolidation.LinkPair.
- Consolidation.Place: the source's slot array has `calculate_degree(n) + 1` entries and indexes past its end if a degree reaches that bound. The model grows the array with empty slots instead. No bound on degrees is proved.
- FibHeap.Insert: `n` is an unbounded integer, so the source's 32-bit `int` counter wrapping past 2^31 - 1 nodes is not modelled. The same holds for the sum in FibHeap.Union.
- FibHeap.Union: `union_with` called with the heap itself as `other` splices the ring into itself, then empties the heap through `other.min = nullptr` and `other.n = 0` (fib_heaps.cpp:310-316, 323-324). The model's two heaps are separate values and cannot alias, so this case is not modelled.
- Keys are 32-bit (`Key`), so `INT_MIN` is at most every key. The model's `Delete` decreases the first match to `INT_MIN` and then extracts a least key. It removes one occurrence of the key even when `INT_MIN` is already stored, because only the multiset of keys is observable.
- FibHeap.Delete: removes exactly one occurrence of a present key. On a key stored more than once, `delete_node`'s scan can also rewrite further occurrences to `INT_MIN` (fib_heaps.cpp:245-264), and `extract_min` removes only one of them, so the source can leave the `INT_MIN` sentinel in the heap. Example: insert 3, 5, 5, 1, then extract the minimum, so that one 5 is a child of 3 and the other a root. Deleting 5 then leaves {3, INT_MIN} in the source and {3, 5} in the model.

=== FILE: consolidate.dfy ===
/** `consolidate`, `fib_heap_link` and `calculate_degree`: the pass that runs
    after `extract_min` and merges roots of equal degree until each degree
    occurs at most once. */
module Consolidation {
  import opened Trees
  import opened Outcomes

  function Pow2(k: nat): nat {
    if k == 0 then 1 else 2 * Pow2(k - 1)
  }

  /** Number of binary digits of a positive `n`; 0 otherwise. */
  function BitLength(n: int): nat
    decreases if n > 0 then n else 0
  {
    if n <= 0 then 0 else 1 + BitLength(n / 2)
  }

  /** `calculate_degree`: halves `n` until it reaches zero and counts the
      halvings, which is the bit length of `n`. */
  method CalculateDegree(n: int) returns (count: nat)
    ensures count == BitLength(n)
    ensures n <= 0 ==> count == 0
    ensures n > 0 ==> count >= 1 && Pow2(count - 1) <= n < Pow2(count)
  {
    count := 0;
    var m := n;
    while m > 0
      invariant n > 0 ==> 0 <= m
      invariant n <= 0 ==> m == n && count == 0
      invariant count + BitLength(m) == BitLength(n)
      decreases m
    {
      m := m / 2;
      count := count + 1;
    }
    BitLengthBounds(n);
  }

  /** A positive `n` lies between the two powers of two around its bit length. */
  lemma {:induction false} BitLengthBounds(n: int)
    ensures n > 0 ==> BitLength(n) >= 1 && Pow2(BitLength(n) - 1) <= n < Pow2(BitLength(n))
    decreases if n > 0 then n else 0
  {
    if n > 1 {
      BitLengthBounds(n / 2);
      var b := BitLength(n / 2);
      assert BitLength(n) == b + 1;
      assert Pow2(b + 1) == 2 * Pow2(b);
    }
  }

  /** `fib_heap_link(y, x)`: `y` becomes a child of `x`. It is spliced into
      `x`'s child ring to the left of `x->child` and becomes the
      representative when its key is smaller than the representative's;
      `x->degree` rises by one. `y` keeps its mark. */
  function Link(y: Tree, x: Tree): (r: Tree)
    ensures r.key == x.key && r.mark == x.mark
    ensures r.degree == x.degree + 1 && |r.children| == |x.children| + 1
    ensures y in r.children
    ensures forall u :: u in x.children ==> u in r.children
    ensures r.children == [y] + x.children || r.children == x.children + [y]
    ensures r.children[0] == if x.children == [] || y.key < x.children[0].key then y else x.children[0]
    ensures Keys(r) == Keys(x) + Keys(y)
    ensures WellFormed(x) && WellFormed(y) && x.key <= y.key ==> WellFormed(r)
  {
    LinkWellFormed(y, x);
    x.(degree := x.degree + 1, children := SpliceMin(x.children, y))
  }

  lemma LinkWellFormed(y: Tree, x: Tree)
    ensures WellFormed(x) && WellFormed(y) && x.key <= y.key ==>
      WellFormed(x.(degree := x.degree + 1, children := SpliceMin(x.children, y)))
  {
    var cs := SpliceMin(x.children, y);
    if WellFormed(x) && WellFormed(y) && x.key <= y.key {
      var n := |x.children|;
      forall i | 0 <= i < |cs| ensures x.key <= cs[i].key && WellFormed(cs[i]) {
        if cs == [y] + x.children {
          if i > 0 {
            assert cs[i] == x.children[i - 1];
          }
        } else if i < n {
          assert cs[i] == x.children[i];
        }
      }
    }
  }

  /** One round of the inner loop of `consolidate`: `current` meets the
      tree `y` already in its slot; the larger key is linked under the
      smaller, and on a tie `current` stays the parent. */
  function LinkPair(cur: Tree, y: Tree): (r: Tree)
    ensures r.key == if cur.key <= y.key then cur.key else y.key
    ensures cur.key <= y.key ==>
      && r.mark == cur.mark && r.degree == cur.degree + 1
      && y in r.children && (forall u :: u in cur.children ==> u in r.children)
    ensures y.key < cur.key ==>
      && r.mark == y.mark && r.degree == y.degree + 1
      && cur in r.children && (forall u :: u in y.children ==> u in r.children)
    ensures Keys(r) == Keys(cur) + Keys(y)
    ensures WellFormed(cur) && WellFormed(y) ==> WellFormed(r)
  {
    if cur.key > y.key then Link(cur, y) else Link(y, cur)
  }

  /** The degree-indexed slot array `A` of `consolidate`. */
  type Slots = seq<Option<Tree>>

  /** Slot `i` holds, if anything, a well-formed tree of degree `i`. */
  predicate SlotsOk(A: Slots) {
    forall i :: 0 <= i < |A| && A[i].Some? ==> A[i].value.degree == i && WellFormed(A[i].value)
  }

  /** The occupied slots in index order. */
  function Present(A: Slots): seq<Tree>
  {
    if A == [] then []
    else Present(A[..|A| - 1]) + (if A[|A| - 1].Some? then [A[|A| - 1].value] else [])
  }

  function SlotKeys(A: Slots): multiset<Key> {
    ForestKeys(Present(A))
  }

  function OptKeys(o: Option<Tree>): multiset<Key> {
    if o.Some? then Keys(o.value) else multiset{}
  }

  /** The inner `while (A[d] != nullptr)` loop of `consolidate`: while slot
      `d` is taken, link the root of larger key under the other (on a tie
      `current` stays parent), clear the slot and move to `d + 1`; then
      store the survivor. The source's `A` has a fixed length; when `d` runs
      past its end the model grows it with empty slots. */
  function Place(A: Slots, cur: Tree, d: nat): Slots
    decreases |A| - d
  {
    if d >= |A| then
      A + seq(d - |A|, _ => None) + [Some(cur)]
    else
      match A[d]
      case None => A[d := Some(cur)]
      case Some(y) =>
        Place(A[d := None], LinkPair(cur, y), d + 1)
  }

  /** The `for` loop of `consolidate` over the snapshot of the root ring. */
  function Fold(A: Slots, rs: seq<Tree>): Slots
    requires ForestWF(rs)
    decreases |rs|
  {
    if rs == [] then A
    else
      assert WellFormed(rs[0]);
      Fold(Place(A, rs[0], rs[0].degree), rs[1..])
  }

  /** The final loop of `consolidate`: every occupied slot, in index order,
      becomes a singleton and is spliced into the new root ring, and `min`
      moves to it when its key is strictly smaller. */
  function Rebuild(A: Slots): seq<Tree>
  {
    if A == [] then []
    else
      var ring := Rebuild(A[..|A| - 1]);
      match A[|A| - 1]
      case None => ring
      case Some(t) => SpliceMin(ring, t)
  }

  /** `consolidate` on the root ring `roots` of a heap whose node count is
      `n` (still counting the node being extracted, as in the source). The
      slot array starts with `calculate_degree(n) + 1` empty slots. */
  function Consolidate(roots: seq<Tree>, n: int): (r: seq<Tree>)
    requires ForestWF(roots)
    ensures ForestKeys(r) == ForestKeys(roots)
    ensures ForestWF(r) && MinFirst(r) && DistinctDegrees(r)
    ensures r == [] <==> roots == []
  {
    var A0: Slots := seq(BitLength(n) + 1, _ => None);
    PresentNone(A0);
    FoldProps(A0, roots);
    var A := Fold(A0, roots);
    RebuildProps(A);
    ForestKeysEmpty(roots);
    ForestKeysEmpty(Rebuild(A));
    Rebuild(A)
  }

  lemma {:induction false} PresentAppend(a: Slots, b: Slots)
    ensures Present(a + b) == Present(a) + Present(b)
    decreases |b|
  {
    if b != [] {
      var b' := b[..|b| - 1];
      assert (a + b)[..|a + b| - 1] == a + b';
      assert (a + b)[|a + b| - 1] == b[|b| - 1];
      PresentAppend(a, b');
    } else {
      assert a + b == a;
    }
  }

  lemma {:induction false} PresentNone(A: Slots)
    requires forall i :: 0 <= i < |A| ==> A[i].None?
    ensures Present(A) == []
    decreases |A|
  {
    if A != [] {
      PresentNone(A[..|A| - 1]);
    }
  }

  /** Overwriting one slot exchanges its keys for the new entry's. */
  lemma SlotKeysSplit(pre: Slots, o: Option<Tree>, post: Slots)
    ensures SlotKeys(pre + [o] + post) == SlotKeys(pre) + OptKeys(o) + SlotKeys(post)
  {
    PresentAppend(pre + [o], post);
    PresentAppend(pre, [o]);
    assert [o][..0] == [];
    var u, v, w := Present(pre), Present([o]), Present(post);
    ForestKeysAppend(u + v, w);
    ForestKeysAppend(u, v);
    assert ForestKeys(v) == OptKeys(o);
  }

  lemma SlotKeysUpdate(A: Slots, i: nat, o: Option<Tree>)
    requires i < |A|
    ensures SlotKeys(A[i := o]) + OptKeys(A[i]) == SlotKeys(A) + OptKeys(o)
  {
    var pre, post := A[..i], A[i + 1..];
    assert A == pre + [A[i]] + post;
    assert A[i := o] == pre + [o] + post;
    SlotKeysSplit(pre, A[i], post);
    SlotKeysSplit(pre, o, post);
  }

  /** Placing a root past the end of the slot array. */
  lemma PlaceGrow(A: Slots, cur: Tree, d: nat)
    requires SlotsOk(A) && WellFormed(cur) && cur.degree == d && d >= |A|
    ensures SlotsOk(Place(A, cur, d))
    ensures SlotKeys(Place(A, cur, d)) == SlotKeys(A) + Keys(cur)
  {
    var pad: Slots := seq(d - |A|, _ => None);
    PresentNone(pad);
    PresentAppend(A, pad);
    PresentAppend(A + pad, [Some(cur)]);
    assert [Some(cur)][..0] == [];
    assert Present([Some(cur)]) == [cur];
    assert Place(A, cur, d) == (A + pad) + [Some(cur)];
    assert Present(Place(A, cur, d)) == Present(A) + [cur];
    ForestKeysSnoc(Present(A), cur);
  }

  /** Placing a root in a free slot. */
  lemma PlaceFree(A: Slots, cur: Tree, d: nat)
    requires SlotsOk(A) && WellFormed(cur) && cur.degree == d && d < |A| && A[d].None?
    ensures SlotsOk(Place(A, cur, d))
    ensures SlotKeys(Place(A, cur, d)) == SlotKeys(A) + Keys(cur)
  {
    SlotKeysUpdate(A, d, Some(cur));
    assert OptKeys(A[d]) == multiset{} && OptKeys(Some(cur)) == Keys(cur);
  }

  /** Placing a root in a taken slot empties the slot and places the
      linked pair one slot further on. */
  lemma PlaceLinkStep(A: Slots, cur: Tree, d: nat)
    requires SlotsOk(A) && WellFormed(cur) && cur.degree == d && d < |A| && A[d].Some?
    ensures var linked := LinkPair(cur, A[d].value);
      && Place(A, cur, d) == Place(A[d := None], linked, d + 1)
      && SlotsOk(A[d := None]) && WellFormed(linked) && linked.degree == d + 1
      && Keys(linked) == Keys(cur) + Keys(A[d].value)
      && SlotKeys(A[d := None]) + Keys(A[d].value) == SlotKeys(A)
  {
    var y := A[d].value;
    SlotKeysUpdate(A, d, None);
    assert OptKeys(A[d]) == Keys(y) && OptKeys(None) == multiset{};
  }

  /** Placing a root keeps the slot invariant and adds exactly its keys. */
  lemma {:induction false} PlaceProps(A: Slots, cur: Tree, d: nat)
    requires SlotsOk(A) && WellFormed(cur) && cur.degree == d
    ensures SlotsOk(Place(A, cur, d))
    ensures SlotKeys(Place(A, cur, d)) == SlotKeys(A) + Keys(cur)
    decreases |A| - d
  {
    if d >= |A| {
      PlaceGrow(A, cur, d);
    } else if A[d].None? {
      PlaceFree(A, cur, d);
    } else {
      var y := A[d].value;
      var A' := A[d := None];
      var linked := LinkPair(cur, y);
      PlaceLinkStep(A, cur, d);
      PlaceProps(A', linked, d + 1);
      calc {
        SlotKeys(Place(A, cur, d));
        SlotKeys(A') + Keys(linked);
        SlotKeys(A') + (Keys(cur) + Keys(y));
        (SlotKeys(A') + Keys(y)) + Keys(cur);
        SlotKeys(A) + Keys(cur);
      }
    }
  }

  lemma {:induction false} FoldProps(A: Slots, rs: seq<Tree>)
    requires SlotsOk(A) && ForestWF(rs)
    ensures SlotsOk(Fold(A, rs))
    ensures SlotKeys(Fold(A, rs)) == SlotKeys(A) + ForestKeys(rs)
    decreases |rs|
  {
    if rs != [] {
      assert WellFormed(rs[0]);
      PlaceProps(A, rs[0], rs[0].degree);
      FoldProps(Place(A, rs[0], rs[0].degree), rs[1..]);
      ForestKeysCons(rs[0], rs[1..]);
      assert rs == [rs[0]] + rs[1..];
    }
  }

  /** Trees of a ring whose degrees all lie below `k`. */
  predicate DegreesBelow(ring: seq<Tree>, k: int) {
    forall i :: 0 <= i < |ring| ==> 0 <= ring[i].degree < k
  }

  /** Splicing a tree of a new, larger degree into the rebuilt ring. */
  lemma SpliceNewDegree(ring: seq<Tree>, t: Tree, k: nat)
    requires ForestWF(ring) && MinFirst(ring) && DistinctDegrees(ring) && DegreesBelow(ring, k)
    requires WellFormed(t) && t.degree == k
    ensures ForestWF(SpliceMin(ring, t)) && MinFirst(SpliceMin(ring, t))
    ensures DistinctDegrees(SpliceMin(ring, t)) && DegreesBelow(SpliceMin(ring, t), k + 1)
  {
    var r := SpliceMin(ring, t);
    if r == [t] + ring {
      assert forall i :: 0 < i < |r| ==> r[i] == ring[i - 1];
    } else {
      assert forall i :: 0 <= i < |ring| ==> r[i] == ring[i];
    }
  }

  /** The rebuilt root ring holds exactly the occupied slots' trees, with
      the least key first and one tree per degree. */
  lemma {:induction false} RebuildProps(A: Slots)
    requires SlotsOk(A)
    ensures ForestKeys(Rebuild(A)) == SlotKeys(A)
    ensures ForestWF(Rebuild(A)) && MinFirst(Rebuild(A)) && DistinctDegrees(Rebuild(A))
    ensures DegreesBelow(Rebuild(A), |A|)
    decreases |A|
  {
    if A != [] {
      var A' := A[..|A| - 1];
      assert SlotsOk(A');
      RebuildProps(A');
      var ring := Rebuild(A');
      if A[|A| - 1].None? {
        assert Present(A) == Present(A') + [] == Present(A');
        assert Rebuild(A) == ring;
      } else {
        var t := A[|A| - 1].value;
        assert Present(A) == Present(A') + [t];
        assert Rebuild(A) == SpliceMin(ring, t);
        ForestKeysSnoc(Present(A'), t);
        SpliceNewDegree(ring, t, |A| - 1);
      }
    }
  }
}

=== FILE: cuts.dfy ===
/** `decrease_key`, `find_and_decrease_key`, `cut` and `cascading_cut`. */
module Cuts {
  import opened Trees
  import opened Paths
  import opened Outcomes

  /** The locate step of `find_and_decrease_key` on one tree: the tree's own
      root if it holds `k` (answer `[]`), otherwise the first match among
      its children. */
  function LocateTree(t: Tree, k: Key): (r: Option<Path>)
    ensures r.Some? && r.value == [] ==> t.key == k
    ensures r.Some? && r.value != [] ==> ValidPath(t.children, r.value) && At(t.children, r.value).key == k
    ensures r.None? <==> k !in Keys(t)
    ensures t.key == k ==> r == Some([])
    decreases t
  {
    if t.key == k then Some([]) else LocateForest(t.children, k)
  }

  /** The locate step of `find_and_decrease_key` on a sibling ring, read from
      its representative: the first node in depth-first preorder whose key
      is `k`. The source keeps scanning siblings after a match found below
      a node; only the first match is modelled. */
  function LocateForest(ts: seq<Tree>, k: Key): (r: Option<Path>)
    ensures r.Some? ==> ValidPath(ts, r.value) && At(ts, r.value).key == k
    ensures r.None? <==> k !in ForestKeys(ts)
    decreases ts
  {
    if ts == [] then None
    else
      ForestKeysSplitFirst(ts, k);
      match LocateTree(ts[0], k)
      case Some(q) =>
        PathIntoFirst(ts, q);
        Some([0] + q)
      case None =>
        match LocateForest(ts[1..], k)
        case None => None
        case Some(q) =>
          PathIntoRest(ts, q);
          Some([q[0] + 1] + q[1..])
  }

  /** Depth-first preorder between two paths into the same ring: `a` comes
      first when it is a proper prefix of `b` (an ancestor), or when it
      takes a smaller child index where the two paths part. */
  predicate PathBefore(a: Path, b: Path)
    decreases |a|
  {
    |b| > 0 && (|a| == 0 || a[0] < b[0] || (a[0] == b[0] && PathBefore(a[1..], b[1..])))
  }

  /** On one tree, a match found below the root is the first one in
      depth-first preorder among the root's descendants. */
  lemma {:induction false} LocateTreeFirst(t: Tree, k: Key)
    ensures LocateTree(t, k).Some? && LocateTree(t, k).value != [] ==>
      forall p :: ValidPath(t.children, p) && At(t.children, p).key == k ==>
        !PathBefore(p, LocateTree(t, k).value)
    decreases t
  {
    if t.key != k {
      LocateForestFirst(t.children, k);
    }
  }

  /** The search answers the first node holding `k` in depth-first preorder
      from the representative: no node holding `k` comes before it. */
  lemma {:induction false} LocateForestFirst(ts: seq<Tree>, k: Key)
    ensures LocateForest(ts, k).Some? ==>
      forall p :: ValidPath(ts, p) && At(ts, p).key == k ==> !PathBefore(p, LocateForest(ts, k).value)
    decreases ts
  {
    if ts != [] {
      LocateTreeFirst(ts[0], k);
      match LocateTree(ts[0], k)
      case Some(q) =>
        assert LocateForest(ts, k) == Some([0] + q);
        forall p | ValidPath(ts, p) && At(ts, p).key == k
          ensures !PathBefore(p, [0] + q)
        {
          if p[0] == 0 {
            assert ([0] + q)[1..] == q;
            if |p| == 1 {
              assert At(ts, p) == ts[0];
            }
          }
        }
      case None =>
        LocateForestFirst(ts[1..], k);
        match LocateForest(ts[1..], k)
        case None =>
        case Some(q) =>
          assert LocateForest(ts, k) == Some([q[0] + 1] + q[1..]);
          forall p | ValidPath(ts, p) && At(ts, p).key == k
            ensures !PathBefore(p, [q[0] + 1] + q[1..])
          {
            if p[0] == 0 {
              AtKeyInTree(ts, p);
            } else {
              var p' := [p[0] - 1] + p[1..];
              assert p'[1..] == p[1..] && ts[1..][p'[0]] == ts[p[0]];
              assert ValidPath(ts[1..], p') && At(ts[1..], p') == At(ts, p);
              assert ([q[0] + 1] + q[1..])[1..] == q[1..];
            }
          }
    }
  }

  /** `parent_node` after losing child number `c`: the child ring closes
      over the gap (when the representative leaves, its right sibling takes
      over; when the only child leaves, the ring is empty) and `degree`
      drops by one. */
  function RemoveChild(x: Tree, c: nat): (r: Tree)
    requires c < |x.children|
    ensures r.key == x.key && r.mark == x.mark && r.degree == x.degree - 1
    ensures r.children == x.children[..c] + x.children[c + 1..]
    ensures |x.children| == 1 ==> r.children == []
    ensures c == 0 && |x.children| > 1 ==> r.children[0] == x.children[1]
    ensures c > 0 ==> r.children[0] == x.children[0]
    ensures Keys(r) + Keys(x.children[c]) == Keys(x)
    ensures WellFormed(x) ==> WellFormed(r)
  {
    ForestKeysRemove(x.children, c);
    RemoveChildWellFormed(x, c);
    x.(degree := x.degree - 1, children := x.children[..c] + x.children[c + 1..])
  }

  lemma RemoveChildWellFormed(x: Tree, c: nat)
    requires c < |x.children|
    ensures WellFormed(x) ==>
      WellFormed(x.(degree := x.degree - 1, children := x.children[..c] + x.children[c + 1..]))
  {
    var cs := x.children[..c] + x.children[c + 1..];
    if WellFormed(x) {
      forall i | 0 <= i < |cs|
        ensures x.key <= cs[i].key && WellFormed(cs[i])
      {
        var j := if i < c then i else i + 1;
        assert cs[i] == x.children[j];
      }
    }
  }

  /** `parent_node->mark = true` on the node at path `q`. */
  function MarkAt(ts: seq<Tree>, q: Path): (r: seq<Tree>)
    requires ValidPath(ts, q)
    ensures |r| == |ts|
    ensures forall i :: 0 <= i < |ts| ==> r[i].key == ts[i].key
    ensures forall i :: 0 <= i < |ts| && i != q[0] ==> r[i] == ts[i]
    ensures ValidPath(r, q) && At(r, q) == At(ts, q).(mark := true)
    ensures OnlyMarkAt(ts, r, q)
    ensures ForestKeys(r) == ForestKeys(ts)
    ensures ForestWF(ts) ==> ForestWF(r)
  {
    MarkAtFrame(ts, q);
    MarkAtKeys(ts, q);
    ReplaceAt(ts, q, At(ts, q).(mark := true))
  }

  /** Setting a mark changes no key and keeps a forest well formed. */
  lemma MarkAtKeys(ts: seq<Tree>, q: Path)
    requires ValidPath(ts, q)
    ensures var r := ReplaceAt(ts, q, At(ts, q).(mark := true));
      && |r| == |ts|
      && (forall i :: 0 <= i < |ts| ==> r[i].key == ts[i].key)
      && (forall i :: 0 <= i < |ts| && i != q[0] ==> r[i] == ts[i])
      && ValidPath(r, q) && At(r, q) == At(ts, q).(mark := true)
      && ForestKeys(r) == ForestKeys(ts)
      && (ForestWF(ts) ==> ForestWF(r))
  {
    var node := At(ts, q);
    AtReplaced(ts, q, node.(mark := true));
    assert Keys(node.(mark := true)) == Keys(node);
    ReplaceSameKeys(ts, q, node.(mark := true));
    if ForestWF(ts) {
      AtWellFormed(ts, q);
      ReplaceWellFormed(ts, q, node.(mark := true));
    }
  }

  lemma MarkAtFrame(ts: seq<Tree>, q: Path)
    requires ValidPath(ts, q)
    ensures OnlyMarkAt(ts, ReplaceAt(ts, q, At(ts, q).(mark := true)), q)
  {
    var t := At(ts, q).(mark := true);
    forall p {
      ReplaceShapeFrame(ts, q, t, p);
    }
  }

  /** The forest with the subtree at `p` unhooked from its parent. */
  function Detach(ts: seq<Tree>, p: Path): (r: seq<Tree>)
    requires ValidPath(ts, p) && |p| >= 2
    ensures |r| == |ts|
    ensures forall i :: 0 <= i < |ts| ==> r[i].key == ts[i].key
    ensures forall i :: 0 <= i < |ts| && i != p[0] ==> r[i] == ts[i]
    ensures ValidPath(ts, Parent(p)) && Last(p) < |At(ts, Parent(p)).children|
    ensures ValidPath(r, Parent(p)) && At(r, Parent(p)) == RemoveChild(At(ts, Parent(p)), Last(p))
    ensures ForestKeys(r) + Keys(At(ts, p)) == ForestKeys(ts)
    ensures ForestWF(ts) ==> ForestWF(r)
  {
    var q, c := Parent(p), Last(p);
    ParentStep(ts, p);
    var x := At(ts, q);
    var r := ReplaceAt(ts, q, RemoveChild(x, c));
    AtReplaced(ts, q, RemoveChild(x, c));
    ReplaceKeys(ts, q, RemoveChild(x, c));
    MultisetChain(ForestKeys(r), ForestKeys(ts), Keys(x), Keys(RemoveChild(x, c)),
                  Keys(At(ts, p)), multiset{});
    if ForestWF(ts) then
      AtWellFormed(ts, q);
      ReplaceWellFormed(ts, q, RemoveChild(x, c));
      r
    else
      r
  }

  /** `cut(node, parent)` for the node at path `p`: it leaves its parent's
      child ring and is spliced into the root ring to the left of `min`,
      with no parent and `mark` cleared. */
  function Cut(ts: seq<Tree>, p: Path): (r: seq<Tree>)
    requires ValidPath(ts, p) && |p| >= 2
    ensures |r| == |ts| + 1
    ensures r[|ts|] == At(ts, p).(mark := false)
    ensures forall i :: 0 <= i < |ts| ==> r[i].key == ts[i].key
    ensures forall i :: 0 <= i < |ts| && i != p[0] ==> r[i] == ts[i]
    ensures ValidPath(ts, Parent(p)) && Last(p) < |At(ts, Parent(p)).children|
    ensures ValidPath(r, Parent(p)) && At(r, Parent(p)) == RemoveChild(At(ts, Parent(p)), Last(p))
    ensures forall i {:trigger SameBut(ts, r, p[..i], p[i])} :: 1 <= i < |p| - 1 ==> SameBut(ts, r, p[..i], p[i])
    ensures ForestKeys(r) == ForestKeys(ts)
    ensures ForestWF(ts) ==> ForestWF(r)
  {
    CutShape(ts, p);
    CutAncestors(ts, p);
    CutKeys(ts, p);
    CutWellFormed(ts, p);
    Detach(ts, p) + [At(ts, p).(mark := false)]
  }

  lemma CutShape(ts: seq<Tree>, p: Path)
    requires ValidPath(ts, p) && |p| >= 2
    ensures forall i :: 0 <= i < |ts| ==> (Detach(ts, p) + [At(ts, p).(mark := false)])[i].key == ts[i].key
    ensures forall i :: 0 <= i < |ts| && i != p[0] ==> (Detach(ts, p) + [At(ts, p).(mark := false)])[i] == ts[i]
    ensures ValidPath(Detach(ts, p) + [At(ts, p).(mark := false)], Parent(p))
    ensures At(Detach(ts, p) + [At(ts, p).(mark := false)], Parent(p))
         == RemoveChild(At(ts, Parent(p)), Last(p))
  {
    var d := Detach(ts, p);
    forall i | 0 <= i < |ts| ensures (d + [At(ts, p).(mark := false)])[i] == d[i] {
    }
    AtAppend(d, [At(ts, p).(mark := false)], Parent(p));
  }

  /** The ancestors above the parent keep their key, degree, mark and every
      child but the one leading to the cut node. */
  lemma CutAncestors(ts: seq<Tree>, p: Path)
    requires ValidPath(ts, p) && |p| >= 2
    ensures forall i {:trigger SameBut(ts, Detach(ts, p) + [At(ts, p).(mark := false)], p[..i], p[i])} :: 1 <= i < |p| - 1 ==>
      SameBut(ts, Detach(ts, p) + [At(ts, p).(mark := false)], p[..i], p[i])
  {
    var q := Parent(p);
    ParentStep(ts, p);
    var rc := RemoveChild(At(ts, q), Last(p));
    var d := Detach(ts, p);
    assert d == ReplaceAt(ts, q, rc);
    forall i | 1 <= i < |p| - 1
      ensures SameBut(ts, d + [At(ts, p).(mark := false)], p[..i], p[i])
    {
      ReplaceAncestor(ts, q, rc, i);
      assert q[..i] == p[..i] && q[i] == p[i];
      AtAppend(d, [At(ts, p).(mark := false)], p[..i]);
    }
  }

  lemma CutKeys(ts: seq<Tree>, p: Path)
    requires ValidPath(ts, p) && |p| >= 2
    ensures ForestKeys(Detach(ts, p) + [At(ts, p).(mark := false)]) == ForestKeys(ts)
  {
    var node := At(ts, p);
    ForestKeysSnoc(Detach(ts, p), node.(mark := false));
    assert Keys(node.(mark := false)) == Keys(node);
  }

  lemma CutWellFormed(ts: seq<Tree>, p: Path)
    requires ValidPath(ts, p) && |p| >= 2
    ensures ForestWF(ts) ==> ForestWF(Detach(ts, p) + [At(ts, p).(mark := false)])
  {
    if ForestWF(ts) {
      AtWellFormed(ts, p);
      assert WellFormed(At(ts, p).(mark := false));
    }
  }

  /** `cascading_cut` on the node at path `q`: a root stops it; an unmarked
      node is marked and stops it; a marked node is cut and the walk goes on
      at its parent. Each step moves to a strictly shorter path. */
  function CascadingCut(ts: seq<Tree>, q: Path): (r: seq<Tree>)
    requires ValidPath(ts, q)
    ensures |q| == 1 ==> r == ts
    ensures CascadeFrame(ts, q, r)
    ensures CascadeResult(ts, q, r)
    decreases |q|
  {
    if |q| == 1 then
      ts
    else if !At(ts, q).mark then
      CascadeMarkStep(ts, q);
      MarkAt(ts, q)
    else
      var r := CascadingCut(Cut(ts, q), Parent(q));
      CascadeCutStep(ts, q, r);
      r
  }

  /** What every cascading cut keeps: the old roots keep their keys and,
      but for the tree holding `q`, stay as they are; only roots are added;
      the key multiset is unchanged; heap order is kept, and every new root
      is at least the key of the tree it came from. */
  predicate CascadeFrame(ts: seq<Tree>, q: Path, r: seq<Tree>)
    requires ValidPath(ts, q)
  {
    && |r| >= |ts|
    && (forall i :: 0 <= i < |ts| ==> r[i].key == ts[i].key)
    && (forall i :: 0 <= i < |ts| && i != q[0] ==> r[i] == ts[i])
    && ForestKeys(r) == ForestKeys(ts)
    && (ForestWF(ts) ==> ForestWF(r))
    && (ForestWF(ts) ==> forall i :: |ts| <= i < |r| ==> ts[q[0]].key <= r[i].key)
  }

  /** The step on an unmarked non-root: it is marked and the walk stops. */
  lemma CascadeMarkStep(ts: seq<Tree>, q: Path)
    requires ValidPath(ts, q) && |q| >= 2 && !At(ts, q).mark
    ensures CascadeFrame(ts, q, MarkAt(ts, q))
    ensures CascadeResult(ts, q, MarkAt(ts, q))
  {
    assert q[..|q|] == q;
  }

  /** The step on a marked non-root: the cut followed by the cascade from
      its parent in the cut forest. */
  lemma CascadeCutStep(ts: seq<Tree>, q: Path, r: seq<Tree>)
    requires ValidPath(ts, q) && |q| >= 2 && At(ts, q).mark
    requires ValidPath(Cut(ts, q), Parent(q))
    requires CascadeFrame(Cut(ts, q), Parent(q), r)
    requires CascadeResult(Cut(ts, q), Parent(q), r)
    ensures CascadeFrame(ts, q, r)
    ensures CascadeResult(ts, q, r)
  {
    var cut := Cut(ts, q);
    assert r[|ts|] == cut[|ts|];
    CascadeCutFrame(ts, q, r);
    CascadeCutResult(ts, q, r);
  }

  lemma CascadeCutFrame(ts: seq<Tree>, q: Path, r: seq<Tree>)
    requires ValidPath(ts, q) && |q| >= 2
    requires ValidPath(Cut(ts, q), Parent(q))
    requires CascadeFrame(Cut(ts, q), Parent(q), r)
    ensures CascadeFrame(ts, q, r)
  {
    if ForestWF(ts) {
      AtAboveRoot(ts, q);
    }
  }

  lemma CascadeCutResult(ts: seq<Tree>, q: Path, r: seq<Tree>)
    requires ValidPath(ts, q) && |q| >= 2 && At(ts, q).mark
    requires ValidPath(Cut(ts, q), Parent(q))
    requires CascadeResult(Cut(ts, q), Parent(q), r)
    requires |r| > |ts| && r[|ts|] == Cut(ts, q)[|ts|]
    ensures CascadeResult(ts, q, r)
  {
    var cut := Cut(ts, q);
    CutIsCutAt(ts, q);
    CutPrefix(ts, q);
    CascadeRunLength(ts, q, cut);
    CascadeTop(ts, q, cut, r);
    CascadeStep(ts, q, cut, r);
  }

  /** The two cases of one `cascading_cut` step on a non-root: an unmarked
      node ends marked and nothing else changes; a marked node is the first
      new root, unmarked. */
  lemma CascadeCases(ts: seq<Tree>, q: Path)
    requires ValidPath(ts, q) && |q| >= 2
    ensures !At(ts, q).mark ==> CascadingCut(ts, q) == MarkAt(ts, q)
    ensures !At(ts, q).mark ==>
      |CascadingCut(ts, q)| == |ts| && ValidPath(CascadingCut(ts, q), q) && At(CascadingCut(ts, q), q).mark
    ensures At(ts, q).mark ==>
      |CascadingCut(ts, q)| > |ts| && CascadingCut(ts, q)[|ts|] == At(ts, q).(mark := false)
  {
  }

  /** The number of consecutive marked non-root nodes from `q` upwards: the
      nodes `cascading_cut` started at `q` cuts. */
  function MarkedRun(ts: seq<Tree>, q: Path): (m: nat)
    requires ValidPath(ts, q)
    ensures m < |q|
    decreases |q|
  {
    if |q| == 1 || !At(ts, q).mark then 0
    else
      ParentStep(ts, q);
      1 + MarkedRun(ts, Parent(q))
  }

  /** The effect of `cascading_cut` started at `q`, read off `ts` alone.
      With no run, a root is left alone and a non-root is marked. Otherwise
      the `MarkedRun(ts, q)` nodes of the run become the new roots, in order
      from `q` upwards, each unmarked and, above `q`, without the child that
      was cut from it; the old roots become `AfterRun`, where the first node
      above the run has lost the run and ends marked unless it is a root. */
  predicate CascadeResult(ts: seq<Tree>, q: Path, r: seq<Tree>)
    requires ValidPath(ts, q)
  {
    CascadeKept(ts, q, r) && CascadeRoots(ts, q, r)
  }

  /** What becomes of the old roots. */
  predicate CascadeKept(ts: seq<Tree>, q: Path, r: seq<Tree>)
    requires ValidPath(ts, q)
  {
    var m := MarkedRun(ts, q);
    && |r| >= |ts|
    && (m == 0 ==> r == if |q| >= 2 then MarkAt(ts, q) else ts)
    && (m > 0 ==> r[..|ts|] == AfterRun(ts, q, |q| - m))
  }

  /** The new roots, and the mark on the node where the walk stops. */
  predicate CascadeRoots(ts: seq<Tree>, q: Path, r: seq<Tree>)
    requires ValidPath(ts, q)
  {
    var m := MarkedRun(ts, q);
    && |r| == |ts| + m
    && (m > 0 ==> r[|ts|] == At(ts, q).(mark := false) && r[|ts| + 1..] == Run(ts, q, m - 1))
    && StopMarked(r, q, m)
  }

  /** The old roots after `cascading_cut` from `q` has cut every node
      below depth `k` on the path: the node `q[..k]` where the walk stops
      has lost its child on the path and, unless it is a root, is marked;
      nothing else in them changes. */
  function AfterRun(ts: seq<Tree>, q: Path, k: nat): (r: seq<Tree>)
    requires ValidPath(ts, q) && 1 <= k < |q|
    ensures |r| == |ts|
  {
    PrefixValid(ts, q, k);
    var x := RemoveChild(At(ts, q[..k]), q[k]);
    ReplaceAt(ts, q[..k], if k >= 2 then x.(mark := true) else x)
  }

  /** The node `m` levels above `q` is marked in `r`, unless it is a root. */
  predicate StopMarked(r: seq<Tree>, q: Path, m: nat) {
    |q| - m >= 2 ==> ValidPath(r, q[..|q| - m]) && At(r, q[..|q| - m]).mark
  }

  /** Counting the levels from the parent of `q` instead of from `q`. */
  lemma StopMarkedParent(r: seq<Tree>, q: Path, m: nat)
    requires |q| >= 2 && m >= 1 && StopMarked(r, Parent(q), m - 1)
    ensures StopMarked(r, q, m)
  {
    if |q| - m >= 2 {
      ParentPrefix(q, |q| - m);
    }
  }

  /** The parent of the node at `q` as `cut` leaves it when the cascade
      cuts it in turn: without the child `q`, and unmarked. */
  function Uncut(ts: seq<Tree>, q: Path): Tree
    requires ValidPath(ts, q) && |q| >= 2
  {
    ParentStep(ts, q);
    RemoveChild(At(ts, Parent(q)), Last(q)).(mark := false)
  }

  /** The `m` ancestors of `q`, going up, each as `Uncut` leaves it. */
  function Run(ts: seq<Tree>, q: Path, m: nat): (r: seq<Tree>)
    requires ValidPath(ts, q) && m < |q|
    ensures |r| == m
    decreases m
  {
    if m == 0 then []
    else
      ParentStep(ts, q);
      [Uncut(ts, q)] + Run(ts, Parent(q), m - 1)
  }

  /** Removing the same child from two nodes that differ only in that child. */
  lemma RemoveChildSameBut(x: Tree, y: Tree, c: nat)
    requires c < |x.children| && |y.children| == |x.children|
    requires x.key == y.key && x.degree == y.degree && x.mark == y.mark
    requires forall j :: 0 <= j < |x.children| && j != c ==> y.children[j] == x.children[j]
    ensures RemoveChild(y, c) == RemoveChild(x, c)
  {
    var a, b := x.children[..c] + x.children[c + 1..], y.children[..c] + y.children[c + 1..];
    forall j | 0 <= j < |a| ensures a[j] == b[j] {
      if j < c {
        assert a[j] == x.children[j] && b[j] == y.children[j];
      } else {
        assert a[j] == x.children[j + 1] && b[j] == y.children[j + 1];
      }
    }
    assert a == b;
  }

  lemma ParentPrefix(q: Path, k: nat)
    requires 1 <= k < |q|
    ensures Parent(q)[..k] == q[..k]
    ensures k < |q| - 1 ==> Parent(q)[k] == q[k]
  {
  }

  /** Two forests that agree on the marks along every prefix of `a` have the
      same marked run at `a`. */
  lemma {:induction false} MarkedRunSame(ts: seq<Tree>, us: seq<Tree>, a: Path)
    requires ValidPath(ts, a) && ValidPath(us, a)
    requires forall k :: 1 <= k <= |a| ==>
      ValidPath(ts, a[..k]) && ValidPath(us, a[..k]) && At(us, a[..k]).mark == At(ts, a[..k]).mark
    ensures MarkedRun(us, a) == MarkedRun(ts, a)
    decreases |a|
  {
    assert a[..|a|] == a;
    if |a| > 1 && At(ts, a).mark {
      ParentStep(ts, a);
      ParentStep(us, a);
      forall k | 1 <= k <= |Parent(a)|
        ensures ValidPath(ts, Parent(a)[..k]) && ValidPath(us, Parent(a)[..k])
        ensures At(us, Parent(a)[..k]).mark == At(ts, Parent(a)[..k]).mark
      {
        ParentPrefix(a, k);
      }
      MarkedRunSame(ts, us, Parent(a));
    }
  }

  /** The facts about `c == Cut(ts, q)` that one cascade step relies on. */
  predicate CutAt(ts: seq<Tree>, q: Path, c: seq<Tree>)
    requires ValidPath(ts, q) && |q| >= 2
  {
    && |c| == |ts| + 1 && c[|ts|] == At(ts, q).(mark := false)
    && ValidPath(ts, Parent(q)) && Last(q) < |At(ts, Parent(q)).children|
    && ValidPath(c, Parent(q)) && At(c, Parent(q)) == RemoveChild(At(ts, Parent(q)), Last(q))
    && forall i {:trigger SameBut(ts, c, q[..i], q[i])} :: 1 <= i < |q| - 1 ==> SameBut(ts, c, q[..i], q[i])
  }

  lemma CutIsCutAt(ts: seq<Tree>, q: Path)
    requires ValidPath(ts, q) && |q| >= 2
    ensures CutAt(ts, q, Cut(ts, q))
  {
  }

  /** Cutting a marked node lengthens nothing above it: the run from its
      parent in the cut forest is one shorter. */
  lemma CascadeRunLength(ts: seq<Tree>, q: Path, c: seq<Tree>)
    requires ValidPath(ts, q) && |q| >= 2 && At(ts, q).mark && CutAt(ts, q, c)
    ensures MarkedRun(ts, q) == 1 + MarkedRun(c, Parent(q))
  {
    var a := Parent(q);
    PrefixesValid(ts, q);
    forall k | 1 <= k <= |a|
      ensures ValidPath(ts, a[..k]) && ValidPath(c, a[..k]) && At(c, a[..k]).mark == At(ts, a[..k]).mark
    {
      if k == |a| {
        assert a[..k] == a;
      } else {
        ParentPrefix(q, k);
        assert SameBut(ts, c, q[..k], q[k]);
      }
    }
    MarkedRunSame(ts, c, a);
  }

  /** Two forests whose ancestors of `a` differ only in the child towards
      `a` give the same run above `a`. */
  lemma {:induction false} RunSame(ts: seq<Tree>, c: seq<Tree>, a: Path, k: nat)
    requires ValidPath(ts, a) && ValidPath(c, a) && k < |a|
    requires forall j {:trigger SameBut(ts, c, a[..j], a[j])} :: 1 <= j < |a| ==> SameBut(ts, c, a[..j], a[j])
    ensures Run(c, a, k) == Run(ts, a, k)
    decreases k
  {
    if k > 0 {
      assert a[..|a| - 1] == Parent(a) && a[|a| - 1] == Last(a);
      assert SameBut(ts, c, a[..|a| - 1], a[|a| - 1]);
      UncutSame(ts, c, a);
      SameButParent(ts, c, a);
      RunSame(ts, c, Parent(a), k - 1);
    }
  }

  /** Two nodes that differ only in the child towards `a` lose that child
      to the same result. */
  lemma UncutSame(ts: seq<Tree>, c: seq<Tree>, a: Path)
    requires ValidPath(ts, a) && ValidPath(c, a) && |a| >= 2
    requires SameBut(ts, c, Parent(a), Last(a))
    ensures Uncut(c, a) == Uncut(ts, a)
  {
    ParentStep(ts, a);
    ParentStep(c, a);
    RemoveChildSameBut(At(ts, Parent(a)), At(c, Parent(a)), Last(a));
  }

  /** The ancestors of `a`'s parent differ only towards it, as those of
      `a` do. */
  lemma SameButParent(ts: seq<Tree>, c: seq<Tree>, a: Path)
    requires |a| >= 2
    requires forall j {:trigger SameBut(ts, c, a[..j], a[j])} :: 1 <= j < |a| ==> SameBut(ts, c, a[..j], a[j])
    ensures forall j {:trigger SameBut(ts, c, Parent(a)[..j], Parent(a)[j])} :: 1 <= j < |Parent(a)| ==>
      SameBut(ts, c, Parent(a)[..j], Parent(a)[j])
  {
    var b := Parent(a);
    forall j | 1 <= j < |b| ensures SameBut(ts, c, b[..j], b[j]) {
      ParentPrefix(a, j);
      assert SameBut(ts, c, a[..j], a[j]);
    }
  }

  /** One step of the cascade: cutting a marked node and running the
      cascade from its parent in the cut forest gives the run read off `ts`. */
  lemma CascadeStep(ts: seq<Tree>, q: Path, c: seq<Tree>, r: seq<Tree>)
    requires ValidPath(ts, q) && |q| >= 2 && At(ts, q).mark && CutAt(ts, q, c)
    requires CascadeRoots(c, Parent(q), r)
    requires r[|ts|] == c[|ts|]
    ensures CascadeRoots(ts, q, r)
  {
    CascadeRunLength(ts, q, c);
    var m' := MarkedRun(c, Parent(q));
    var m := MarkedRun(ts, q);
    assert m - 1 == m';
    if m' > 0 {
      CascadeRunRoots(ts, q, c, m');
    }
    CascadeStepRun(ts, q, c, r, m');
    StopMarkedParent(r, q, m);
    CascadeAssemble(ts, q, r, m);
  }

  /** `CascadeRoots` from its three parts. */
  lemma CascadeAssemble(ts: seq<Tree>, q: Path, r: seq<Tree>, m: nat)
    requires ValidPath(ts, q) && m == MarkedRun(ts, q) && |r| == |ts| + m
    requires m > 0 ==> r[|ts|] == At(ts, q).(mark := false) && r[|ts| + 1..] == Run(ts, q, m - 1)
    requires StopMarked(r, q, m)
    ensures CascadeRoots(ts, q, r)
  {
  }

  /** The roots one cascade step adds: the cut node, then the inner run. */
  lemma CascadeStepRun(ts: seq<Tree>, q: Path, c: seq<Tree>, r: seq<Tree>, m': nat)
    requires ValidPath(ts, q) && |q| >= 2 && ValidPath(c, Parent(q)) && m' < |q| - 1
    requires |c| == |ts| + 1 && c[|ts|] == At(ts, q).(mark := false)
    requires |r| == |c| + m' && r[|ts|] == c[|ts|]
    requires m' > 0 ==> r[|c|] == At(c, Parent(q)).(mark := false) && r[|c| + 1..] == Run(c, Parent(q), m' - 1)
    requires m' > 0 ==> Run(ts, q, m') == [At(c, Parent(q)).(mark := false)] + Run(c, Parent(q), m' - 1)
    ensures r[|ts|] == At(ts, q).(mark := false) && r[|ts| + 1..] == Run(ts, q, m')
  {
  }

  /** The run above the cut node, read off `ts`, starts with the cut
      forest's parent node and goes on with the cut forest's run. */
  lemma CascadeRunRoots(ts: seq<Tree>, q: Path, c: seq<Tree>, k: nat)
    requires ValidPath(ts, q) && |q| >= 2 && CutAt(ts, q, c) && 1 <= k < |q|
    ensures Run(ts, q, k) == [At(c, Parent(q)).(mark := false)] + Run(c, Parent(q), k - 1)
  {
    var a := Parent(q);
    ParentStep(ts, q);
    forall j | 1 <= j < |a| ensures SameBut(ts, c, a[..j], a[j]) {
      ParentPrefix(q, j);
      assert SameBut(ts, c, q[..j], q[j]);
    }
    RunSame(ts, c, a, k - 1);
  }

  /** The old roots after one cut and the cascade from the parent: the
      closed form `AfterRun` read off the forest before the cut. */
  lemma CascadeTop(ts: seq<Tree>, q: Path, c: seq<Tree>, r: seq<Tree>)
    requires ValidPath(ts, q) && |q| >= 2 && CutAt(ts, q, c)
    requires c[..|ts|] == ReplaceAt(ts, Parent(q), RemoveChild(At(ts, Parent(q)), Last(q)))
    requires MarkedRun(ts, q) == 1 + MarkedRun(c, Parent(q))
    requires CascadeKept(c, Parent(q), r)
    ensures CascadeKept(ts, q, r)
  {
    var m' := MarkedRun(c, Parent(q));
    assert |c| > |ts| && ValidPath(ts, Parent(q)) && Last(q) < |At(ts, Parent(q)).children|;
    assert ValidPath(c, Parent(q)) && At(c, Parent(q)) == RemoveChild(At(ts, Parent(q)), Last(q));
    if m' == 0 {
      KeptStop(c, Parent(q), r);
      CascadeTopStopCase(ts, q, c, r);
    } else {
      var k := |q| - (m' + 1);
      assert SameBut(ts, c, q[..k], q[k]);
      CascadeTopRunCase(ts, q, c, r, m');
    }
  }

  /** `CascadeTop` when the parent of the cut node is unmarked. */
  lemma CascadeTopStopCase(ts: seq<Tree>, q: Path, c: seq<Tree>, r: seq<Tree>)
    requires ValidPath(ts, q) && |q| >= 2 && |c| > |ts|
    requires ValidPath(ts, Parent(q)) && Last(q) < |At(ts, Parent(q)).children|
    requires ValidPath(c, Parent(q)) && At(c, Parent(q)) == RemoveChild(At(ts, Parent(q)), Last(q))
    requires c[..|ts|] == ReplaceAt(ts, Parent(q), RemoveChild(At(ts, Parent(q)), Last(q)))
    requires MarkedRun(ts, q) == 1
    requires r == if |Parent(q)| >= 2 then MarkAt(c, Parent(q)) else c
    ensures CascadeKept(ts, q, r)
  {
    CascadeTopStop(ts, q, c, r);
    CascadeKeptFrom(ts, q, r, 1, |q| - 1);
  }

  /** `CascadeTop` when the cascade goes on from the parent for `m'` more cuts. */
  lemma CascadeTopRunCase(ts: seq<Tree>, q: Path, c: seq<Tree>, r: seq<Tree>, m': nat)
    requires ValidPath(ts, q) && |q| >= 2 && |c| > |ts| && ValidPath(c, Parent(q))
    requires ValidPath(ts, Parent(q)) && Last(q) < |At(ts, Parent(q)).children|
    requires c[..|ts|] == ReplaceAt(ts, Parent(q), RemoveChild(At(ts, Parent(q)), Last(q)))
    requires 1 <= m' == MarkedRun(c, Parent(q)) && MarkedRun(ts, q) == m' + 1
    requires SameBut(ts, c, q[..|q| - (m' + 1)], q[|q| - (m' + 1)])
    requires CascadeKept(c, Parent(q), r)
    ensures CascadeKept(ts, q, r)
  {
    var k := |q| - (m' + 1);
    KeptRun(c, Parent(q), r, k);
    CascadeTopRun(ts, q, c, r, m');
    CascadeKeptFrom(ts, q, r, m' + 1, k);
  }

  /** `CascadeKept` when the walk stops at once. */
  lemma KeptStop(ts: seq<Tree>, q: Path, r: seq<Tree>)
    requires ValidPath(ts, q) && CascadeKept(ts, q, r) && MarkedRun(ts, q) == 0
    ensures r == if |q| >= 2 then MarkAt(ts, q) else ts
  {
  }

  /** `CascadeKept` after a run of `|q| - k` cuts. */
  lemma KeptRun(ts: seq<Tree>, q: Path, r: seq<Tree>, k: int)
    requires ValidPath(ts, q) && CascadeKept(ts, q, r) && MarkedRun(ts, q) > 0
    requires k == |q| - MarkedRun(ts, q)
    ensures 1 <= k < |q| && |r| >= |ts| && r[..|ts|] == AfterRun(ts, q, k)
  {
    AfterRunCongruence(ts, q, |q| - MarkedRun(ts, q), k);
  }

  /** `AfterRun` at two equal depths. */
  lemma AfterRunCongruence(ts: seq<Tree>, q: Path, k1: nat, k2: nat)
    requires ValidPath(ts, q) && 1 <= k1 < |q| && k1 == k2
    ensures AfterRun(ts, q, k1) == AfterRun(ts, q, k2)
  {
  }

  /** `CascadeKept` after a run of at least one cut. */
  lemma CascadeKeptFrom(ts: seq<Tree>, q: Path, r: seq<Tree>, m: nat, k: int)
    requires ValidPath(ts, q) && m == MarkedRun(ts, q) && 1 <= m && k == |q| - m
    requires |r| >= |ts| && 1 <= k < |q| && r[..|ts|] == AfterRun(ts, q, k)
    ensures CascadeKept(ts, q, r)
  {
    AfterRunCongruence(ts, q, k, |q| - MarkedRun(ts, q));
    assert MarkedRun(ts, q) > 0 ==> r[..|ts|] == AfterRun(ts, q, |q| - MarkedRun(ts, q));
  }

  /** The old roots of `Cut(ts, p)` are `ts` with the parent replaced. */
  lemma CutPrefix(ts: seq<Tree>, p: Path)
    requires ValidPath(ts, p) && |p| >= 2
    ensures ValidPath(ts, Parent(p)) && Last(p) < |At(ts, Parent(p)).children|
    ensures Cut(ts, p)[..|ts|] == ReplaceAt(ts, Parent(p), RemoveChild(At(ts, Parent(p)), Last(p)))
  {
    ParentStep(ts, p);
    assert Cut(ts, p)[..|ts|] == Detach(ts, p);
  }

  /** The walk stops right above the cut node: at the root, which only
      loses the child, or at an unmarked node, which is also marked. */
  lemma CascadeTopStop(ts: seq<Tree>, q: Path, c: seq<Tree>, r: seq<Tree>)
    requires ValidPath(ts, q) && |q| >= 2 && |c| > |ts|
    requires ValidPath(ts, Parent(q)) && Last(q) < |At(ts, Parent(q)).children|
    requires ValidPath(c, Parent(q)) && At(c, Parent(q)) == RemoveChild(At(ts, Parent(q)), Last(q))
    requires c[..|ts|] == ReplaceAt(ts, Parent(q), RemoveChild(At(ts, Parent(q)), Last(q)))
    requires r == if |Parent(q)| >= 2 then MarkAt(c, Parent(q)) else c
    ensures |r| > |ts| && r[..|ts|] == AfterRun(ts, q, |q| - 1)
  {
    var a := Parent(q);
    var x := RemoveChild(At(ts, a), Last(q));
    var y := if |a| >= 2 then x.(mark := true) else x;
    assert q[..|q| - 1] == a && q[|q| - 1] == Last(q);
    AfterRunIs(ts, q, |q| - 1, a, x);
    ReplaceTake(c, |ts|, a, y);
    ReplacePrefixOverwrite(ts, a, |a|, x, y);
    assert a[..|a|] == a;
    if |a| >= 2 {
      assert r == ReplaceAt(c, a, y);
    } else {
      assert ReplaceAt(ts, a, x) == ReplaceAt(ReplaceAt(ts, a, x), a, y);
    }
  }

  /** The walk goes on above the cut node's parent: the cut forest's
      `AfterRun` from the parent is the original's from the cut node. */
  lemma CascadeTopRun(ts: seq<Tree>, q: Path, c: seq<Tree>, r: seq<Tree>, m': nat)
    requires ValidPath(ts, q) && |q| >= 2 && |c| > |ts| && ValidPath(c, Parent(q))
    requires ValidPath(ts, Parent(q)) && Last(q) < |At(ts, Parent(q)).children|
    requires c[..|ts|] == ReplaceAt(ts, Parent(q), RemoveChild(At(ts, Parent(q)), Last(q)))
    requires 1 <= m' < |q| - 1
    requires SameBut(ts, c, q[..|q| - (m' + 1)], q[|q| - (m' + 1)])
    requires |r| >= |c| && r[..|c|] == AfterRun(c, Parent(q), |q| - (m' + 1))
    ensures r[..|ts|] == AfterRun(ts, q, |q| - (m' + 1))
  {
    var a := Parent(q);
    var k := |q| - (m' + 1);
    var s := q[..k];
    ParentPrefix(q, k);
    PrefixValid(ts, q, k);
    PrefixValid(c, a, k);
    assert a[..|a| - m'] == s && a[|a| - m'] == q[k];
    assert SameBut(ts, c, q[..k], q[k]);
    RemoveChildSameBut(At(ts, s), At(c, s), q[k]);
    var x := RemoveChild(At(ts, s), q[k]);
    var y := if |s| >= 2 then x.(mark := true) else x;
    assert |a| - m' == k && a[..k] == s;
    assert ValidPath(c, s) && a[k] < |At(c, s).children|;
    assert x == RemoveChild(At(c, s), a[k]);
    AfterRunIs(c, a, k, s, x);
    AfterRunIs(ts, q, k, s, x);
    ReplaceTake(c, |ts|, s, y);
    assert r[..|ts|] == r[..|c|][..|ts|];
    ReplacePrefixOverwrite(ts, a, k, RemoveChild(At(ts, a), Last(q)), y);
  }

  /** `AfterRun` spelled out at the stop node `s`. */
  lemma AfterRunIs(ts: seq<Tree>, q: Path, k: nat, s: Path, x: Tree)
    requires ValidPath(ts, q) && 1 <= k < |q| && s == q[..k]
    requires ValidPath(ts, s) && q[k] < |At(ts, s).children|
    requires x == RemoveChild(At(ts, s), q[k])
    ensures AfterRun(ts, q, k) == ReplaceAt(ts, s, if |s| >= 2 then x.(mark := true) else x)
  {
  }

  /** Heap order along a path: no node is below the root of its tree. */
  lemma {:induction false} AtAboveRoot(ts: seq<Tree>, p: Path)
    requires ValidPath(ts, p) && ForestWF(ts)
    ensures ts[p[0]].key <= At(ts, p).key
    decreases p
  {
    if |p| > 1 {
      var x := ts[p[0]];
      assert ForestWF(x.children);
      AtAboveRoot(x.children, p[1..]);
    }
  }

  /** The ring read from position `j` instead of from its representative:
      the effect of pointing `min` at another root. */
  function Rotate(ts: seq<Tree>, j: nat): (r: seq<Tree>)
    requires j < |ts|
    ensures |r| == |ts| && r[0] == ts[j]
    ensures forall i :: 0 <= i < |ts| - j ==> r[i] == ts[j + i]
    ensures forall i :: |ts| - j <= i < |ts| ==> r[i] == ts[i - (|ts| - j)]
    ensures ForestKeys(r) == ForestKeys(ts)
    ensures forall u :: u in r <==> u in ts
    ensures (forall i :: 0 <= i < |ts| ==> ts[j].key <= ts[i].key) ==> MinFirst(r)
  {
    ForestKeysRotate(ts, j);
    RotateIndex(ts, j);
    ts[j..] + ts[..j]
  }

  lemma RotateIndex(ts: seq<Tree>, j: nat)
    requires j < |ts|
    ensures forall i :: 0 <= i < |ts| - j ==> (ts[j..] + ts[..j])[i] == ts[j + i]
    ensures forall i :: |ts| - j <= i < |ts| ==> (ts[j..] + ts[..j])[i] == ts[i - (|ts| - j)]
    ensures forall u :: u in ts[j..] + ts[..j] <==> u in ts
  {
    assert ts == ts[..j] + ts[j..];
  }

  /** `if (current->key < min->key) min = current;` for the root at
      position `j`. When every other root is at least the representative,
      the result has its least root first. */
  function MinUpdate(ring: seq<Tree>, j: nat): (r: seq<Tree>)
    requires j < |ring|
    ensures |r| == |ring|
    ensures ForestKeys(r) == ForestKeys(ring)
    ensures ForestWF(ring) ==> ForestWF(r)
    ensures (forall i :: 0 <= i < |ring| && i != j ==> ring[0].key <= ring[i].key) ==>
      MinFirst(r) && r[0].key == if ring[j].key < ring[0].key then ring[j].key else ring[0].key
  {
    if ring[j].key < ring[0].key then Rotate(ring, j) else ring
  }

  /** Rewriting the key of the located node at path `p` to `k` and restoring
      the heap: `find_and_decrease_key` from the key write on
      (fib_heaps.cpp:249-258). */
  function DecreaseAt(ts: seq<Tree>, p: Path, k: Key): seq<Tree>
    requires ValidPath(ts, p) && ForestWF(ts) && MinFirst(ts) && k <= At(ts, p).key
  {
    var r1 := ReplaceAt(ts, p, Decreased(ts, p, k));
    AtReplaced(ts, p, Decreased(ts, p, k));
    if |p| == 1 then
      MinUpdate(r1, p[0])
    else
      ParentAfterReplace(ts, p, Decreased(ts, p, k));
      if k < At(r1, Parent(p)).key then
        CutCascadeAndUpdate(r1, p, |ts|)
      else
        // A node left under its parent has a key no smaller than the
        // parent's, so the source's `min` update never fires here.
        r1
  }

  /** `cut(current, parent); cascading_cut(parent);` then the `min` update
      for `current`, which the cut placed at root position `j`. */
  function CutCascadeAndUpdate(r1: seq<Tree>, p: Path, j: nat): seq<Tree>
    requires ValidPath(r1, p) && |p| >= 2 && j == |r1|
  {
    var cut := Cut(r1, p);
    var r := CascadingCut(cut, Parent(p));
    MinUpdate(r, j)
  }

  /** The located node with its key rewritten to `k`. */
  function Decreased(ts: seq<Tree>, p: Path, k: Key): Tree
    requires ValidPath(ts, p)
  {
    At(ts, p).(key := k)
  }

  /** Lowering the key at the root of a subtree keeps it well formed. */
  lemma DecreasedWF(ts: seq<Tree>, p: Path, k: Key)
    requires ValidPath(ts, p) && ForestWF(ts) && k <= At(ts, p).key
    ensures WellFormed(Decreased(ts, p, k))
  {
    AtWellFormed(ts, p);
    assert LocallyOrdered(Decreased(ts, p, k));
  }

  /** Lowering the key at the root of a well-formed tree keeps it well
      formed, and trades the old key for the new one. */
  lemma DecreasedProps(ts: seq<Tree>, p: Path, k: Key)
    requires ValidPath(ts, p) && ForestWF(ts) && k <= At(ts, p).key
    ensures WellFormed(Decreased(ts, p, k))
    ensures ForestKeys(ReplaceAt(ts, p, Decreased(ts, p, k))) + multiset{At(ts, p).key}
         == ForestKeys(ts) + multiset{k}
  {
    var node := At(ts, p);
    var node' := Decreased(ts, p, k);
    DecreasedWF(ts, p, k);
    assert Keys(node') + multiset{node.key} == Keys(node) + multiset{k};
    ReplaceKeys(ts, p, node');
    MultisetChain(ForestKeys(ReplaceAt(ts, p, node')), ForestKeys(ts), Keys(node), Keys(node'),
                  multiset{node.key}, multiset{k});
  }

  /** Cutting a node after rewriting its key is cutting it first and then
      rewriting the key of the new root: the cut never reads the key. */
  lemma CutAfterDecrease(ts: seq<Tree>, p: Path, k: Key)
    requires ValidPath(ts, p) && |p| >= 2
    ensures ValidPath(ReplaceAt(ts, p, Decreased(ts, p, k)), p)
    ensures Cut(ReplaceAt(ts, p, Decreased(ts, p, k)), p)
         == Cut(ts, p)[|ts| := Decreased(ts, p, k).(mark := false)]
  {
    var node' := Decreased(ts, p, k);
    var r1 := ReplaceAt(ts, p, node');
    DetachAfterDecrease(ts, p, k);
    var d := Detach(ts, p);
    AtReplaced(ts, p, node');
    CutIs(ts, p);
    CutIs(r1, p);
    SnocUpdate(d, At(ts, p).(mark := false), node'.(mark := false));
  }

  lemma SnocUpdate(d: seq<Tree>, x: Tree, y: Tree)
    ensures (d + [x])[|d| := y] == d + [y]
  {
    assert forall i :: 0 <= i < |d| ==> (d + [x])[|d| := y][i] == d[i];
  }

  /** Detaching a node does not read its key. */
  lemma DetachAfterDecrease(ts: seq<Tree>, p: Path, k: Key)
    requires ValidPath(ts, p) && |p| >= 2
    ensures ValidPath(ReplaceAt(ts, p, Decreased(ts, p, k)), p)
    ensures Detach(ReplaceAt(ts, p, Decreased(ts, p, k)), p) == Detach(ts, p)
  {
    var q, c := Parent(p), Last(p);
    var node' := Decreased(ts, p, k);
    var r1 := ReplaceAt(ts, p, node');
    AtReplaced(ts, p, node');
    ParentAfterReplace(ts, p, node');
    ParentStep(ts, p);
    var x := At(ts, q);
    assert At(r1, q) == x.(children := x.children[c := node']);
    var cs := x.children[c := node'];
    assert cs[..c] + cs[c + 1..] == x.children[..c] + x.children[c + 1..];
    assert RemoveChild(At(r1, q), c) == RemoveChild(x, c);
    ReplaceOverwrite(ts, p, node', RemoveChild(x, c));
  }

  /** `Cut` appends the detached node to the detached forest. */
  lemma CutIs(ts: seq<Tree>, p: Path)
    requires ValidPath(ts, p) && |p| >= 2
    ensures Cut(ts, p) == Detach(ts, p) + [At(ts, p).(mark := false)]
  {
  }

  /** `decrease_key` on a root: only `min` may move. */
  lemma DecreaseAtRoot(ts: seq<Tree>, p: Path, k: Key)
    requires ValidPath(ts, p) && ForestWF(ts) && MinFirst(ts) && k <= At(ts, p).key && |p| == 1
    ensures ForestWF(DecreaseAt(ts, p, k)) && MinFirst(DecreaseAt(ts, p, k))
    ensures DecreaseAt(ts, p, k) != []
    ensures DecreaseAt(ts, p, k)[0].key == if k < ts[0].key then k else ts[0].key
  {
    var node' := Decreased(ts, p, k);
    DecreasedProps(ts, p, k);
    var r1 := ReplaceAt(ts, p, node');
    ReplaceWellFormed(ts, p, node');
    assert r1 == ts[p[0] := node'];
  }

  /** `decrease_key` on a non-root that stays above its parent's key. */
  lemma DecreaseAtInPlace(ts: seq<Tree>, p: Path, k: Key)
    requires ValidPath(ts, p) && ForestWF(ts) && MinFirst(ts) && k <= At(ts, p).key && |p| >= 2
    requires ValidPath(ts, Parent(p)) && At(ts, Parent(p)).key <= k
    ensures ForestWF(DecreaseAt(ts, p, k)) && MinFirst(DecreaseAt(ts, p, k))
    ensures DecreaseAt(ts, p, k) != []
    ensures DecreaseAt(ts, p, k)[0].key == if k < ts[0].key then k else ts[0].key
  {
    var node' := Decreased(ts, p, k);
    DecreasedProps(ts, p, k);
    ParentAfterReplace(ts, p, node');
    ReplaceWellFormed(ts, p, node');
    AtAboveRoot(ts, Parent(p));
    assert Parent(p)[0] == p[0];
  }

  /** `decrease_key` on a non-root that drops below its parent's key: the
      cut and cascading cut, then `min` moves to the node if it is now the
      least key. */
  lemma DecreaseAtWithCut(ts: seq<Tree>, p: Path, k: Key)
    requires ValidPath(ts, p) && ForestWF(ts) && MinFirst(ts) && k <= At(ts, p).key && |p| >= 2
    requires ValidPath(ts, Parent(p)) && k < At(ts, Parent(p)).key
    ensures ForestWF(DecreaseAt(ts, p, k)) && MinFirst(DecreaseAt(ts, p, k))
    ensures DecreaseAt(ts, p, k) != []
    ensures DecreaseAt(ts, p, k)[0].key == if k < ts[0].key then k else ts[0].key
    ensures ForestKeys(DecreaseAt(ts, p, k)) == ForestKeys(ReplaceAt(ts, p, Decreased(ts, p, k)))
  {
    var r1 := ReplaceAt(ts, p, Decreased(ts, p, k));
    ParentAfterReplace(ts, p, Decreased(ts, p, k));
    AtReplaced(ts, p, Decreased(ts, p, k));
    assert At(r1, Parent(p)).key == At(ts, Parent(p)).key;
    CutOfDecreased(ts, p, k);
    var cut := Cut(r1, p);
    var r := CascadingCut(cut, Parent(p));
    assert DecreaseAt(ts, p, k) == MinUpdate(r, |ts|);
    RootsAfterCascade(ts, cut, r, Parent(p), k);
    UpdateAfterCascade(ts, r, k);
  }

  /** The `min` update after the cascading cut, when the old least root is
      still first and every root but the decreased node at `|ts|` is at
      least its key. */
  lemma UpdateAfterCascade(ts: seq<Tree>, r: seq<Tree>, k: Key)
    requires ts != [] && ForestWF(r) && |r| > |ts| && r[0].key == ts[0].key && r[|ts|].key == k
    requires forall i :: 0 <= i < |r| && i != |ts| ==> ts[0].key <= r[i].key
    ensures ForestWF(MinUpdate(r, |ts|)) && MinFirst(MinUpdate(r, |ts|)) && MinUpdate(r, |ts|) != []
    ensures MinUpdate(r, |ts|)[0].key == if k < ts[0].key then k else ts[0].key
  {
  }

  /** The forest right after the cut of the decreased node: well formed, the
      old roots keep their keys and the node is the new last root. */
  lemma CutOfDecreased(ts: seq<Tree>, p: Path, k: Key)
    requires ValidPath(ts, p) && ForestWF(ts) && k <= At(ts, p).key && |p| >= 2
    ensures ValidPath(ReplaceAt(ts, p, Decreased(ts, p, k)), p)
    ensures var cut := Cut(ReplaceAt(ts, p, Decreased(ts, p, k)), p);
      && ForestWF(cut) && |cut| == |ts| + 1 && cut[|ts|].key == k
      && (forall i :: 0 <= i < |ts| ==> cut[i].key == ts[i].key)
  {
    DecreasedWF(ts, p, k);
    CutAfterDecrease(ts, p, k);
    var node' := Decreased(ts, p, k).(mark := false);
    ForestUpdateLast(ts, Cut(ts, p), node');
  }

  /** Overwriting the last tree of a forest one longer than `ts`. */
  lemma ForestUpdateLast(ts: seq<Tree>, c: seq<Tree>, t: Tree)
    requires ForestWF(c) && |c| == |ts| + 1 && WellFormed(t)
    requires forall i :: 0 <= i < |ts| ==> c[i].key == ts[i].key
    ensures var c' := c[|ts| := t];
      && ForestWF(c') && |c'| == |ts| + 1 && c'[|ts|] == t
      && (forall i :: 0 <= i < |ts| ==> c'[i].key == ts[i].key)
  {
    ForestWFUpdate(c, |ts|, t);
  }

  /** Root keys after the cascading cut: the old roots keep theirs, the
      decreased node holds `k` and every other new root holds a key of the
      tree it came from, hence not below the least root. */
  lemma RootsAfterCascade(ts: seq<Tree>, cut: seq<Tree>, r: seq<Tree>, q: Path, k: Key)
    requires ForestWF(ts) && MinFirst(ts) && ts != [] && q != [] && q[0] < |ts|
    requires ValidPath(cut, q) && ForestWF(cut) && |cut| == |ts| + 1 && cut[|ts|].key == k
    requires forall i :: 0 <= i < |ts| ==> cut[i].key == ts[i].key
    requires r == CascadingCut(cut, q)
    ensures ForestWF(r) && |r| > |ts| && r[0].key == ts[0].key && r[|ts|].key == k
    ensures forall i :: 0 <= i < |r| && i != |ts| ==> ts[0].key <= r[i].key
  {
    assert cut[q[0]].key == ts[q[0]].key;
  }

  /** `decrease_key` after the locate step keeps the heap invariants and
      replaces one occurrence of the old key by the new one; the least key
      becomes the smaller of the old least key and `k`. */
  lemma DecreaseAtProps(ts: seq<Tree>, p: Path, k: Key)
    requires ValidPath(ts, p) && ForestWF(ts) && MinFirst(ts) && k <= At(ts, p).key
    ensures ForestWF(DecreaseAt(ts, p, k)) && MinFirst(DecreaseAt(ts, p, k))
    ensures DecreaseAt(ts, p, k) != []
    ensures DecreaseAt(ts, p, k)[0].key == if k < ts[0].key then k else ts[0].key
    ensures ForestKeys(DecreaseAt(ts, p, k)) + multiset{At(ts, p).key} == ForestKeys(ts) + multiset{k}
  {
    var node' := Decreased(ts, p, k);
    DecreasedProps(ts, p, k);
    var r1 := ReplaceAt(ts, p, node');
    if |p| == 1 {
      DecreaseAtRoot(ts, p, k);
    } else {
      ParentAfterReplace(ts, p, node');
      if k < At(ts, Parent(p)).key {
        DecreaseAtWithCut(ts, p, k);
      } else {
        DecreaseAtInPlace(ts, p, k);
      }
    }
  }
}

=== FILE: heap.dfy ===
/** The public operations of `FibonacciHeap` over an immutable heap value.
    Each operation that mutates the object in the source returns the new
    heap; each one that throws returns a `Failure`. */
module FibHeap {
  import opened Trees
  import opened Paths
  import opened Outcomes
  import opened Consolidation
  import opened Cuts

  /** The heap object: its root ring read from `min` (empty when `min` is
      null) and its node count `n`. */
  datatype Heap = Heap(roots: seq<Tree>, n: int)

  /** `FibonacciHeap()`: `n(0), min(nullptr)`. */
  const Empty: Heap := Heap([], 0)

  /** The invariants every public operation keeps: heap order and `degree`
      in every tree, `min` on a least root, `n` counting the nodes. */
  predicate Valid(h: Heap) {
    && ForestWF(h.roots)
    && MinFirst(h.roots)
    && h.n == ForestSize(h.roots)
  }

  /** The abstract content of a heap: the multiset of its keys. */
  function Contents(h: Heap): multiset<Key> {
    ForestKeys(h.roots)
  }

  /** The least key of a non-empty heap is the one `min` holds. */
  predicate IsLeast(h: Heap, k: Key) {
    k in Contents(h) && forall x :: x in Contents(h) ==> k <= x
  }

  lemma CountIsSize(h: Heap)
    requires Valid(h)
    ensures h.n == |Contents(h)|
    ensures h.n == 0 <==> h.roots == []
  {
    ForestSizeIsKeyCount(h.roots);
    ForestKeysEmpty(h.roots);
  }

  lemma EmptyIsValid()
    ensures Valid(Empty) && Contents(Empty) == multiset{}
  {
  }

  /** `insert(val)`: a new singleton node is spliced into the root ring to
      the left of `min` and becomes `min` when its key is smaller. */
  function Insert(h: Heap, val: Key): (r: Heap)
    requires Valid(h)
    ensures Valid(r)
    ensures Contents(r) == Contents(h) + multiset{val}
    ensures r.n == h.n + 1
    ensures h.n == 0 ==> r.roots == [Leaf(val)]
    ensures h.n > 0 ==> r.roots[0].key == if val < h.roots[0].key then val else h.roots[0].key
  {
    CountIsSize(h);
    var r := Heap(SpliceMin(h.roots, Leaf(val)), h.n + 1);
    assert Keys(Leaf(val)) == multiset{val};
    ForestSizeIsKeyCount(r.roots);
    assert WellFormed(Leaf(val));
    r
  }

  /** `find_min`: the key `min` holds; fails on an empty heap. */
  function FindMin(h: Heap): (r: Result<Key>)
    requires Valid(h)
    ensures r.Failure? <==> h.n == 0
    ensures r.Failure? ==> r.error == EmptyHeap
    ensures r.Success? ==> IsLeast(h, r.value)
  {
    CountIsSize(h);
    if h.roots == [] then
      Failure(EmptyHeap)
    else
      MinFirstIsLeast(h.roots);
      Success(h.roots[0].key)
  }

  /** The root ring during `extract_min` before consolidation: every child
      of `min` spliced in as a root (so it has no parent), then `min`
      itself unlinked; read from `min`'s right sibling. */
  function PromoteChildren(roots: seq<Tree>): (ring: seq<Tree>)
    requires roots != []
    ensures forall c :: c in roots[0].children ==> c in ring
    ensures forall t :: t in roots[1..] ==> t in ring
    ensures |ring| == |roots| - 1 + |roots[0].children|
    ensures forall i :: 0 <= i < |roots| - 1 ==> ring[i] == roots[i + 1]
    ensures forall i :: 0 <= i < |roots[0].children| ==> ring[|roots| - 1 + i] == roots[0].children[i]
    ensures ForestKeys(ring) + multiset{roots[0].key} == ForestKeys(roots)
    ensures ForestWF(roots) ==> ForestWF(ring)
  {
    PromoteKeys(roots);
    PromoteWellFormed(roots);
    roots[1..] + roots[0].children
  }

  lemma PromoteKeys(roots: seq<Tree>)
    requires roots != []
    ensures ForestKeys(roots[1..] + roots[0].children) + multiset{roots[0].key} == ForestKeys(roots)
  {
    var z := roots[0];
    ForestKeysAppend(roots[1..], z.children);
    assert roots == [z] + roots[1..];
    ForestKeysCons(z, roots[1..]);
    Regroup(ForestKeys(roots[1..] + z.children), ForestKeys(roots[1..]), ForestKeys(z.children),
            Keys(z), ForestKeys(roots), z.key);
  }

  lemma Regroup(ring: multiset<Key>, rest: multiset<Key>, kids: multiset<Key>,
                tree: multiset<Key>, all: multiset<Key>, k: Key)
    requires ring == rest + kids && tree == multiset{k} + kids && all == tree + rest
    ensures ring + multiset{k} == all
  {
    forall x ensures (ring + multiset{k})[x] == all[x] {
    }
  }

  lemma PromoteWellFormed(roots: seq<Tree>)
    requires roots != []
    ensures ForestWF(roots) ==> ForestWF(roots[1..] + roots[0].children)
  {
    if ForestWF(roots) {
      assert WellFormed(roots[0]);
      assert ForestWF(roots[1..]);
      ForestWFAppend(roots[1..], roots[0].children);
    }
  }

  datatype Extracted = Extracted(heap: Heap, key: Key)

  /** `extract_min`: removes `min`, promotes its children, consolidates the
      remaining roots and decrements `n`; fails on an empty heap. Returns
      the removed key. */
  function ExtractMin(h: Heap): (r: Result<Extracted>)
    requires Valid(h)
    ensures r.Failure? <==> h.n == 0
    ensures r.Failure? ==> r.error == EmptyHeap
    ensures r.Success? ==> IsLeast(h, r.value.key)
    ensures r.Success? ==> Contents(r.value.heap) == Contents(h) - multiset{r.value.key}
    ensures r.Success? ==> r.value.heap.n == h.n - 1
    ensures r.Success? ==> Valid(r.value.heap) && DistinctDegrees(r.value.heap.roots)
  {
    CountIsSize(h);
    if h.roots == [] then
      Failure(EmptyHeap)
    else
      var z := h.roots[0];
      MinFirstIsLeast(h.roots);
      var ring := PromoteChildren(h.roots);
      var roots := if ring == [] then [] else Consolidate(ring, h.n);
      var h' := Heap(roots, h.n - 1);
      assert Contents(h') == Contents(h) - multiset{z.key};
      ForestSizeIsKeyCount(roots);
      Success(Extracted(h', z.key))
  }

  /** `decrease_key(old_key, new_key)`: locates the first node holding
      `old_key` from `min` in depth-first order; does nothing if there is
      none; fails, before any change, if `new_key > old_key`; otherwise
      rewrites the key and restores the heap by cut and cascading cut. */
  function DecreaseKey(h: Heap, oldKey: Key, newKey: Key): (r: Result<Heap>)
    requires Valid(h)
    ensures oldKey !in Contents(h) ==> r == Success(h)
    ensures oldKey in Contents(h) && newKey > oldKey ==> r == Failure(InvalidDecrease)
    ensures oldKey in Contents(h) && newKey <= oldKey ==>
      && r.Success? && Valid(r.value)
      && Contents(r.value) == Contents(h) - multiset{oldKey} + multiset{newKey}
      && r.value.n == h.n
      && r.value.roots[0].key == if newKey < h.roots[0].key then newKey else h.roots[0].key
  {
    if h.roots == [] then
      Success(h)
    else
      match LocateForest(h.roots, oldKey)
      case None => Success(h)
      case Some(p) =>
        if newKey > oldKey then
          Failure(InvalidDecrease)
        else
          DecreaseFound(h, p, oldKey, newKey);
          Success(Heap(DecreaseAt(h.roots, p, newKey), h.n))
  }

  /** The located node's key is lowered in place: one `oldKey` is exchanged
      for `newKey` and the count stays. */
  lemma DecreaseFound(h: Heap, p: Path, oldKey: Key, newKey: Key)
    requires Valid(h) && ValidPath(h.roots, p) && At(h.roots, p).key == oldKey
    requires oldKey in Contents(h) && newKey <= oldKey
    ensures MinFirst(h.roots) && ForestWF(h.roots)
    ensures var h' := Heap(DecreaseAt(h.roots, p, newKey), h.n);
      && Valid(h')
      && Contents(h') == Contents(h) - multiset{oldKey} + multiset{newKey}
      && h'.roots[0].key == if newKey < h.roots[0].key then newKey else h.roots[0].key
  {
    DecreaseAtProps(h.roots, p, newKey);
    var roots := DecreaseAt(h.roots, p, newKey);
    MultisetSwap(ForestKeys(roots), ForestKeys(h.roots), oldKey, newKey);
    ForestSizeIsKeyCount(roots);
    ForestSizeIsKeyCount(h.roots);
  }

  /** `delete_node(key)`: `decrease_key(key, INT_MIN)` then `extract_min`.
      When `key` is present exactly one occurrence of it goes; when it is
      absent the decrease does nothing and the minimum goes instead. */
  function Delete(h: Heap, key: Key): (r: Result<Heap>)
    requires Valid(h)
    ensures h.n == 0 ==> r == Failure(EmptyHeap)
    ensures key in Contents(h) ==>
      r.Success? && Valid(r.value) && r.value.n == h.n - 1
      && Contents(r.value) == Contents(h) - multiset{key}
    ensures key !in Contents(h) && h.n > 0 ==>
      r.Success? && Valid(r.value) && r.value.n == h.n - 1
      && Contents(r.value) == Contents(h) - multiset{h.roots[0].key}
  {
    CountIsSize(h);
    match DecreaseKey(h, key, IntMin)
    case Failure(e) => Failure(e)
    case Success(h1) =>
      match ExtractMin(h1)
      case Failure(e) => Failure(e)
      case Success(x) =>
        if key in Contents(h) then
          DeleteExtracted(h, key, h1, x);
          Success(x.heap)
        else
          Success(x.heap)
  }

  /** After `key` was lowered to `INT_MIN`, the least key is that
      `INT_MIN`, so extracting it removes the one lowered occurrence. */
  lemma DeleteExtracted(h: Heap, key: Key, h1: Heap, x: Extracted)
    requires key in Contents(h)
    requires Contents(h1) == Contents(h) - multiset{key} + multiset{IntMin}
    requires IsLeast(h1, x.key) && Contents(x.heap) == Contents(h1) - multiset{x.key}
    ensures x.key == IntMin
    ensures Contents(x.heap) == Contents(h) - multiset{key}
  {
    assert IntMin in Contents(h1);
  }

  /** `union_with(other)`: when `other` is non-empty its root ring is
      spliced in just right of `min`, `min` moves to `other.min` if that
      key is smaller, the counts add up and `other` is left empty. */
  function Union(h: Heap, other: Heap): (r: (Heap, Heap))
    requires Valid(h) && Valid(other)
    ensures other.n == 0 ==> r == (h, other)
    ensures other.n > 0 ==> r.1 == Empty
    ensures Valid(r.0)
    ensures Contents(r.0) == Contents(h) + Contents(other)
    ensures r.0.n == h.n + other.n
    ensures h.n > 0 && other.n > 0 ==>
      r.0.roots[0].key == if other.roots[0].key < h.roots[0].key then other.roots[0].key else h.roots[0].key
  {
    CountIsSize(h);
    CountIsSize(other);
    if other.roots == [] then
      (h, other)
    else if h.roots == [] then
      (Heap(other.roots, other.n), Empty)
    else
      var ring := SpliceRings(h.roots, other.roots);
      ForestSizeIsKeyCount(ring);
      ForestSizeIsKeyCount(h.roots);
      ForestSizeIsKeyCount(other.roots);
      (Heap(ring, h.n + other.n), Empty)
  }

  /** The ring splice of `union_with` read from the new `min`: `other`'s
      ring sits between `min` and `min`'s old right sibling, and the ring is
      read from `other.min` when that key is strictly smaller. */
  function SpliceRings(a: seq<Tree>, b: seq<Tree>): (r: seq<Tree>)
    requires a != [] && b != []
    ensures ForestKeys(r) == ForestKeys(a) + ForestKeys(b)
    ensures ForestWF(a) && ForestWF(b) ==> ForestWF(r)
    ensures MinFirst(a) && MinFirst(b) ==>
      MinFirst(r) && r[0].key == if b[0].key < a[0].key then b[0].key else a[0].key
  {
    SpliceRingsKeys(a, b);
    SpliceRingsWellFormed(a, b);
    SpliceRingsMin(a, b);
    if b[0].key < a[0].key then b + a[1..] + [a[0]] else [a[0]] + b + a[1..]
  }

  lemma SpliceRingsKeys(a: seq<Tree>, b: seq<Tree>)
    requires a != []
    ensures ForestKeys([a[0]] + b + a[1..]) == ForestKeys(a) + ForestKeys(b)
    ensures ForestKeys(b + a[1..] + [a[0]]) == ForestKeys(a) + ForestKeys(b)
  {
    assert a == [a[0]] + a[1..];
    ForestKeysCons(a[0], a[1..]);
    ForestKeysAppend([a[0]] + b, a[1..]);
    ForestKeysCons(a[0], b);
    ForestKeysSnoc(b + a[1..], a[0]);
    ForestKeysAppend(b, a[1..]);
  }

  lemma SpliceRingsWellFormed(a: seq<Tree>, b: seq<Tree>)
    requires a != []
    ensures ForestWF(a) && ForestWF(b) ==>
      ForestWF([a[0]] + b + a[1..]) && ForestWF(b + a[1..] + [a[0]])
  {
    if ForestWF(a) && ForestWF(b) {
      assert ForestWF([a[0]]) && ForestWF(a[1..]);
      ForestWFAppend([a[0]], b);
      ForestWFAppend([a[0]] + b, a[1..]);
      ForestWFAppend(b, a[1..]);
      ForestWFAppend(b + a[1..], [a[0]]);
    }
  }

  lemma SpliceRingsMin(a: seq<Tree>, b: seq<Tree>)
    requires a != [] && b != []
    ensures MinFirst(a) && MinFirst(b) && b[0].key < a[0].key ==> MinFirst(b + a[1..] + [a[0]])
    ensures MinFirst(a) && MinFirst(b) && a[0].key <= b[0].key ==> MinFirst([a[0]] + b + a[1..])
  {
    if MinFirst(a) && MinFirst(b) {
      if b[0].key < a[0].key {
        var r := b + a[1..] + [a[0]];
        forall i | 0 <= i < |r| ensures r[0].key <= r[i].key {
          if i < |b| {
            assert r[i] == b[i];
          } else if i < |r| - 1 {
            assert r[i] == a[i - |b| + 1];
          }
        }
      } else {
        var r := [a[0]] + b + a[1..];
        forall i | 0 <= i < |r| ensures r[0].key <= r[i].key {
          if 0 < i <= |b| {
            assert r[i] == b[i - 1];
          } else if i > |b| {
            assert r[i] == a[i - |b|];
          }
        }
      }
    }
  }

  /** Repeated `extract_min` until the heap is empty: the keys come out in
      ascending order and are exactly the heap's contents. */
  function Drain(h: Heap): (s: seq<Key>)
    requires Valid(h)
    ensures multiset(s) == Contents(h)
    ensures Ascending(s)
    decreases h.n
  {
    CountIsSize(h);
    match ExtractMin(h)
    case Failure(_) => []
    case Success(x) =>
      var rest := Drain(x.heap);
      DrainStep(Contents(h), x.key, rest);
      [x.key] + rest
  }

  predicate Ascending(s: seq<Key>) {
    forall i, j :: 0 <= i < j < |s| ==> s[i] <= s[j]
  }

  /** Prepending the least key of `c` to an ascending listing of the rest
      of `c` gives an ascending listing of `c`. */
  lemma DrainStep(c: multiset<Key>, k: Key, rest: seq<Key>)
    requires k in c && (forall y :: y in c ==> k <= y)
    requires multiset(rest) == c - multiset{k} && Ascending(rest)
    ensures multiset([k] + rest) == c && Ascending([k] + rest)
  {
    MultisetPutBack(c, k);
    forall j | 0 <= j < |rest| ensures k <= rest[j] {
      assert rest[j] in multiset(rest);
    }
  }
}

=== FILE: outcomes.dfy ===
/** Failure-carrying results for the heap operations. The source signals its
    errors by throwing `runtime_error`; here every fallible operation returns
    one of these values instead. */
module Outcomes {

  datatype Option<+T> = None | Some(value: T)

  /** The two messages the source throws. */
  datatype HeapError =
    | EmptyHeap        // "Heap is empty"
    | InvalidDecrease  // "New key is greater than current key"

  datatype Result<+T> = Success(value: T) | Failure(error: HeapError)
}

=== FILE: paths.dfy ===
/** Addressing a node inside the forest.

    A path `[i0, i1, ..., ik]` names `roots[i0].children[i1]...children[ik]`;
    its last index is the node's position in its parent's child ring and
    dropping it gives the parent's path. This replaces the source's `parent`
    pointer when a node has to be relinked in place. */
module Paths {
  import opened Trees

  type Path = seq<nat>

  predicate ValidPath(ts: seq<Tree>, p: Path)
    decreases p
  {
    && |p| > 0
    && p[0] < |ts|
    && (|p| == 1 || ValidPath(ts[p[0]].children, p[1..]))
  }

  function At(ts: seq<Tree>, p: Path): Tree
    requires ValidPath(ts, p)
    decreases p
  {
    if |p| == 1 then ts[p[0]] else At(ts[p[0]].children, p[1..])
  }

  function Parent(p: Path): Path
    requires |p| >= 2
  {
    p[..|p| - 1]
  }

  function Last(p: Path): nat
    requires |p| > 0
  {
    p[|p| - 1]
  }

  /** The forest with the subtree at `p` replaced by `t`. Only the nodes on
      the path are rebuilt; the trees beside it are the same values. */
  function ReplaceAt(ts: seq<Tree>, p: Path, t: Tree): (r: seq<Tree>)
    requires ValidPath(ts, p)
    ensures |r| == |ts|
    ensures forall i :: 0 <= i < |ts| && i != p[0] ==> r[i] == ts[i]
    ensures |p| >= 2 ==> r[p[0]].key == ts[p[0]].key && r[p[0]].degree == ts[p[0]].degree
    ensures |p| >= 2 ==> r[p[0]].mark == ts[p[0]].mark
    decreases p
  {
    if |p| == 1 then ts[p[0] := t]
    else ts[p[0] := ts[p[0]].(children := ReplaceAt(ts[p[0]].children, p[1..], t))]
  }

  /** The parent of a node holds it as child number `Last(p)`. */
  lemma {:induction false} ParentStep(ts: seq<Tree>, p: Path)
    requires ValidPath(ts, p) && |p| >= 2
    ensures ValidPath(ts, Parent(p))
    ensures Last(p) < |At(ts, Parent(p)).children|
    ensures At(ts, p) == At(ts, Parent(p)).children[Last(p)]
    decreases p
  {
    if |p| > 2 {
      assert Parent(p)[1..] == Parent(p[1..]);
      ParentStep(ts[p[0]].children, p[1..]);
    }
  }

  /** After a replacement the new subtree sits at `p`. */
  lemma {:induction false} AtReplaced(ts: seq<Tree>, p: Path, t: Tree)
    requires ValidPath(ts, p)
    ensures ValidPath(ReplaceAt(ts, p, t), p) && At(ReplaceAt(ts, p, t), p) == t
    decreases p
  {
    if |p| > 1 {
      AtReplaced(ts[p[0]].children, p[1..], t);
    }
  }

  /** After a replacement at `p`, the parent of `p` holds the new subtree
      in place of the old one and is otherwise unchanged. */
  lemma {:induction false} ParentAfterReplace(ts: seq<Tree>, p: Path, t: Tree)
    requires ValidPath(ts, p) && |p| >= 2
    ensures ValidPath(ts, Parent(p))
    ensures ValidPath(ReplaceAt(ts, p, t), Parent(p))
    ensures Last(p) < |At(ts, Parent(p)).children|
    ensures At(ReplaceAt(ts, p, t), Parent(p))
         == At(ts, Parent(p)).(children := At(ts, Parent(p)).children[Last(p) := t])
    decreases p
  {
    ParentStep(ts, p);
    if |p| > 2 {
      assert Parent(p)[1..] == Parent(p[1..]);
      ParentAfterReplace(ts[p[0]].children, p[1..], t);
    }
  }

  /** A replacement at an ancestor overwrites any earlier replacement below it. */
  lemma {:induction false} ReplaceOverwrite(ts: seq<Tree>, p: Path, t1: Tree, t2: Tree)
    requires ValidPath(ts, p) && |p| >= 2
    ensures ValidPath(ts, Parent(p))
    ensures ValidPath(ReplaceAt(ts, p, t1), Parent(p))
    ensures ReplaceAt(ReplaceAt(ts, p, t1), Parent(p), t2) == ReplaceAt(ts, Parent(p), t2)
    decreases p
  {
    ParentAfterReplace(ts, p, t1);
    if |p| > 2 {
      assert Parent(p)[1..] == Parent(p[1..]);
      ReplaceOverwrite(ts[p[0]].children, p[1..], t1, t2);
    }
  }

  /** A replacement trades the keys of the old subtree for those of the new. */
  lemma {:induction false} ReplaceKeys(ts: seq<Tree>, p: Path, t: Tree)
    requires ValidPath(ts, p)
    ensures ForestKeys(ReplaceAt(ts, p, t)) + Keys(At(ts, p)) == ForestKeys(ts) + Keys(t)
    decreases p
  {
    var x := ts[p[0]];
    if |p| == 1 {
      assert ReplaceAt(ts, p, t) == ts[p[0] := t] && At(ts, p) == x;
      ForestKeysUpdate(ts, p[0], t);
    } else {
      var x' := x.(children := ReplaceAt(x.children, p[1..], t));
      var gone := Keys(At(ts, p));
      assert ReplaceAt(ts, p, t) == ts[p[0] := x'];
      assert At(ts, p) == At(x.children, p[1..]);
      ReplaceKeys(x.children, p[1..], t);
      assert Keys(x') == multiset{x.key} + ForestKeys(x'.children);
      assert Keys(x) == multiset{x.key} + ForestKeys(x.children);
      assert ForestKeys(x'.children) + gone == ForestKeys(x.children) + Keys(t);
      MultisetChain(Keys(x'), Keys(x), ForestKeys(x.children), ForestKeys(x'.children), gone, Keys(t));
      ForestKeysUpdate(ts, p[0], x');
      MultisetChain(ForestKeys(ts[p[0] := x']), ForestKeys(ts), Keys(x), Keys(x'), gone, Keys(t));
    }
  }

  /** A replacement keeps every tree well formed when the new subtree is
      well formed and not below the key of the parent it is hung under. */
  lemma {:induction false} ReplaceWellFormed(ts: seq<Tree>, p: Path, t: Tree)
    requires ValidPath(ts, p) && ForestWF(ts) && WellFormed(t)
    requires |p| >= 2 ==> ValidPath(ts, Parent(p)) && At(ts, Parent(p)).key <= t.key
    ensures ForestWF(ReplaceAt(ts, p, t))
    decreases p
  {
    if |p| > 1 {
      var x := ts[p[0]];
      var cs := ReplaceAt(x.children, p[1..], t);
      if |p| > 2 {
        assert Parent(p)[1..] == Parent(p[1..]);
      }
      ReplaceWellFormed(x.children, p[1..], t);
      assert |p[1..]| == 1 ==> cs[p[1]] == t;
      assert LocallyOrdered(x.(children := cs));
      assert WellFormed(x.(children := cs));
    }
  }

  /** Heap order along a path: a node's key is not below its parent's, and
      the subtree it roots is well formed. */
  lemma {:induction false} AtWellFormed(ts: seq<Tree>, p: Path)
    requires ValidPath(ts, p) && ForestWF(ts)
    ensures WellFormed(At(ts, p))
    ensures |p| >= 2 ==> ValidPath(ts, Parent(p)) && At(ts, Parent(p)).key <= At(ts, p).key
    decreases p
  {
    if |p| > 1 {
      var x := ts[p[0]];
      assert ForestWF(x.children);
      AtWellFormed(x.children, p[1..]);
      ParentStep(ts, p);
      if |p| == 2 {
        assert At(ts, Parent(p)) == x;
      } else {
        assert Parent(p)[1..] == Parent(p[1..]);
      }
    }
  }

  /** Appending roots keeps every path valid and its node the same. */
  lemma {:induction false} AtAppend(ts: seq<Tree>, more: seq<Tree>, p: Path)
    requires ValidPath(ts, p)
    ensures ValidPath(ts + more, p) && At(ts + more, p) == At(ts, p)
    ensures ReplaceAt(ts + more, p, At(ts, p)) == ts + more
  {
    assert (ts + more)[p[0]] == ts[p[0]];
    SelfReplace(ts + more, p);
  }

  /** Putting back the subtree already at `p` changes nothing. */
  lemma {:induction false} SelfReplace(ts: seq<Tree>, p: Path)
    requires ValidPath(ts, p)
    ensures ReplaceAt(ts, p, At(ts, p)) == ts
    decreases p
  {
    if |p| > 1 {
      SelfReplace(ts[p[0]].children, p[1..]);
    }
  }

  /** Replacing a node in one of the first `n` roots and then keeping only
      those roots is replacing it in the kept roots. */
  lemma ReplaceTake(ts: seq<Tree>, n: nat, p: Path, t: Tree)
    requires ValidPath(ts, p) && p[0] < n <= |ts|
    ensures ValidPath(ts[..n], p)
    ensures ReplaceAt(ts, p, t)[..n] == ReplaceAt(ts[..n], p, t)
  {
  }

  /** A replacement at a prefix of `p` overwrites any earlier replacement
      at `p`. */
  lemma {:induction false} ReplacePrefixOverwrite(ts: seq<Tree>, p: Path, k: nat, t1: Tree, t2: Tree)
    requires ValidPath(ts, p) && 1 <= k <= |p|
    ensures ValidPath(ts, p[..k]) && ValidPath(ReplaceAt(ts, p, t1), p[..k])
    ensures ReplaceAt(ReplaceAt(ts, p, t1), p[..k], t2) == ReplaceAt(ts, p[..k], t2)
    decreases p
  {
    var x := ts[p[0]];
    var u := ReplaceAt(ts, p, t1);
    if k == 1 {
      assert p[..1] == [p[0]];
      var a, b := ReplaceAt(u, p[..1], t2), ReplaceAt(ts, p[..1], t2);
      forall i | 0 <= i < |ts| ensures a[i] == b[i] {
      }
    } else {
      assert p[..k][0] == p[0] && p[..k][1..] == p[1..][..k - 1];
      ReplacePrefixOverwrite(x.children, p[1..], k - 1, t1, t2);
      assert u[p[0]] == x.(children := ReplaceAt(x.children, p[1..], t1));
    }
  }

  /** A path into the first tree of a ring, seen from the ring. */
  lemma PathIntoFirst(ts: seq<Tree>, q: Path)
    requires ts != [] && (q == [] || ValidPath(ts[0].children, q))
    ensures ValidPath(ts, [0] + q)
    ensures At(ts, [0] + q) == if q == [] then ts[0] else At(ts[0].children, q)
  {
    assert ([0] + q)[1..] == q;
  }

  /** A path into the ring without its first tree, seen from the whole ring. */
  lemma PathIntoRest(ts: seq<Tree>, q: Path)
    requires ts != [] && ValidPath(ts[1..], q)
    ensures ValidPath(ts, [q[0] + 1] + q[1..])
    ensures At(ts, [q[0] + 1] + q[1..]) == At(ts[1..], q)
  {
    var p := [q[0] + 1] + q[1..];
    assert p[1..] == q[1..] && ts[p[0]] == ts[1..][q[0]];
  }

  /** Replacing a subtree by one with the same keys keeps the forest's keys. */
  lemma ReplaceSameKeys(ts: seq<Tree>, p: Path, t: Tree)
    requires ValidPath(ts, p) && Keys(t) == Keys(At(ts, p))
    ensures ForestKeys(ReplaceAt(ts, p, t)) == ForestKeys(ts)
  {
    ReplaceKeys(ts, p, t);
    var a, b := ForestKeys(ReplaceAt(ts, p, t)), ForestKeys(ts);
    forall k ensures a[k] == b[k] {
      assert (a + Keys(t))[k] == (b + Keys(t))[k];
    }
  }
  /** A path names the same node in any ring whose tree at its first index
      is the same. */
  lemma AtSameTree(ts: seq<Tree>, us: seq<Tree>, p: Path)
    requires |p| > 0 && p[0] < |ts| && p[0] < |us| && ts[p[0]] == us[p[0]]
    ensures ValidPath(ts, p) <==> ValidPath(us, p)
    ensures ValidPath(ts, p) ==> At(ts, p) == At(us, p)
  {
  }

  /** Every non-empty prefix of a valid path is valid, and the next index of
      the path names a child of the node there. */
  lemma {:induction false} PrefixValid(ts: seq<Tree>, p: Path, k: nat)
    requires ValidPath(ts, p) && 1 <= k <= |p|
    ensures ValidPath(ts, p[..k])
    ensures k < |p| ==> p[k] < |At(ts, p[..k]).children|
    ensures k < |p| ==> ValidPath(ts, p[..k + 1]) && At(ts, p[..k + 1]) == At(ts, p[..k]).children[p[k]]
    decreases p
  {
    if k > 1 {
      PrefixValid(ts[p[0]].children, p[1..], k - 1);
      assert p[..k][1..] == p[1..][..k - 1];
      if k < |p| {
        assert p[..k + 1][1..] == p[1..][..k];
      }
    } else {
      assert p[..1] == [p[0]];
      if k < |p| {
        assert p[..2][1..] == [p[1]];
      }
    }
  }

  lemma PrefixesValid(ts: seq<Tree>, p: Path)
    requires ValidPath(ts, p)
    ensures forall k :: 1 <= k <= |p| ==> ValidPath(ts, p[..k])
    ensures forall k :: 1 <= k < |p| ==> p[k] < |At(ts, p[..k]).children|
  {
    forall k | 1 <= k <= |p|
      ensures ValidPath(ts, p[..k]) && (k < |p| ==> p[k] < |At(ts, p[..k]).children|)
    {
      PrefixValid(ts, p, k);
    }
  }

  /** The key of any node of a tree is one of the tree's keys. */
  lemma {:induction false} AtKeyInTree(ts: seq<Tree>, p: Path)
    requires ValidPath(ts, p)
    ensures At(ts, p).key in Keys(ts[p[0]])
    decreases p
  {
    var x := ts[p[0]];
    if |p| > 1 {
      AtKeyInTree(x.children, p[1..]);
      ForestKeysRemove(x.children, p[1]);
    }
  }

  /** Two nodes that differ at most in their marks. */
  predicate SameShape(a: Tree, b: Tree) {
    a.key == b.key && a.degree == b.degree && a.children == b.children
  }

  /** `us` has exactly the node positions of `ts`; every node keeps its key
      and degree, and every node but the one at `q` keeps its mark. */
  ghost predicate OnlyMarkAt(ts: seq<Tree>, us: seq<Tree>, q: Path) {
    && (forall p :: ValidPath(us, p) <==> ValidPath(ts, p))
    && (forall p :: ValidPath(ts, p) ==>
          && ValidPath(us, p)
          && At(us, p).key == At(ts, p).key
          && At(us, p).degree == At(ts, p).degree
          && (p != q ==> At(us, p).mark == At(ts, p).mark))
  }

  /** Replacing a node by one that differs only in its mark changes nothing
      else anywhere in the forest. */
  lemma {:induction false} ReplaceShapeFrame(ts: seq<Tree>, q: Path, t: Tree, p: Path)
    requires ValidPath(ts, q) && SameShape(t, At(ts, q))
    ensures ValidPath(ReplaceAt(ts, q, t), p) <==> ValidPath(ts, p)
    ensures ValidPath(ts, p) ==>
      && ValidPath(ReplaceAt(ts, q, t), p)
      && At(ReplaceAt(ts, q, t), p).key == At(ts, p).key
      && At(ReplaceAt(ts, q, t), p).degree == At(ts, p).degree
      && At(ReplaceAt(ts, q, t), p).mark == if p == q then t.mark else At(ts, p).mark
    decreases p
  {
    var r := ReplaceAt(ts, q, t);
    if |p| > 0 && p[0] < |ts| {
      if p[0] != q[0] {
        AtSameTree(ts, r, p);
      } else if |q| == 1 {
        assert r[q[0]] == t;
        if |p| > 1 {
          assert p != q;
        }
      } else {
        var x := ts[q[0]];
        assert r[q[0]] == x.(children := ReplaceAt(x.children, q[1..], t));
        if |p| > 1 {
          ReplaceShapeFrame(x.children, q[1..], t, p[1..]);
          assert p == [p[0]] + p[1..] && q == [q[0]] + q[1..];
          assert p == q <==> p[1..] == q[1..];
        } else {
          assert p != q;
        }
      }
    }
  }

  /** The node at `a` in `us` is the node at `a` in `ts` except, possibly,
      for the subtree of its child number `c`: the same key, degree and
      mark, and the same other children. */
  predicate SameBut(ts: seq<Tree>, us: seq<Tree>, a: Path, c: nat) {
    && ValidPath(ts, a) && ValidPath(us, a)
    && At(us, a).key == At(ts, a).key
    && At(us, a).degree == At(ts, a).degree
    && At(us, a).mark == At(ts, a).mark
    && |At(us, a).children| == |At(ts, a).children|
    && forall j :: 0 <= j < |At(ts, a).children| && j != c ==> At(us, a).children[j] == At(ts, a).children[j]
  }

  /** A replacement at `q` changes each proper ancestor of `q` only below
      the child that leads to `q`. */
  lemma {:induction false} ReplaceAncestor(ts: seq<Tree>, q: Path, t: Tree, i: nat)
    requires ValidPath(ts, q) && 1 <= i < |q|
    ensures SameBut(ts, ReplaceAt(ts, q, t), q[..i], q[i])
    decreases q
  {
    var x := ts[q[0]];
    var r := ReplaceAt(ts, q, t);
    if i == 1 {
      assert q[..1] == [q[0]];
      assert r[q[0]] == x.(children := ReplaceAt(x.children, q[1..], t));
    } else {
      ReplaceAncestor(x.children, q[1..], t, i - 1);
      assert q[..i][1..] == q[1..][..i - 1];
      assert q[1..][i - 1] == q[i];
    }
  }
}

=== FILE: trees.dfy ===
/** Heap-ordered trees and the sibling rings that hold them.

    A node of the source carries `key`, `degree`, `mark`, a representative
    `child` and `left`/`right` sibling pointers.  Here a sibling ring is a
    sequence read rightwards from its representative: the root ring starts at
    `min`, a child ring starts at `parent->child`.  Splicing a node "to the
    left of the representative" therefore appends it, and moving the
    representative onto the new node rotates it to the front.  The `parent`
    pointer is implicit: a tree in a `children` sequence has that parent, a
    tree in the root ring has none. */
module Trees {

  /** The source stores keys in a C++ `int`. */
  newtype Key = x: int | -0x8000_0000 <= x < 0x8000_0000

  /** `numeric_limits<int>::min()`, the sentinel used by `delete_node`. */
  const IntMin: Key := -0x8000_0000

  datatype Tree = Node(key: Key, degree: int, mark: bool, children: seq<Tree>)

  /** The node `new Node(k)` builds: no children, unmarked. */
  function Leaf(k: Key): Tree {
    Node(k, 0, false, [])
  }

  /** The multiset of keys stored in a tree. */
  function Keys(t: Tree): multiset<Key>
    decreases t
  {
    multiset{t.key} + ForestKeys(t.children)
  }

  /** The multiset of keys stored in a ring of trees. */
  function ForestKeys(ts: seq<Tree>): multiset<Key>
    decreases ts
  {
    if ts == [] then multiset{} else ForestKeys(ts[..|ts| - 1]) + Keys(ts[|ts| - 1])
  }

  /** Number of nodes in a tree. */
  function Size(t: Tree): nat
    decreases t
  {
    1 + ForestSize(t.children)
  }

  /** Number of nodes in a ring of trees. */
  function ForestSize(ts: seq<Tree>): nat
    decreases ts
  {
    if ts == [] then 0 else ForestSize(ts[..|ts| - 1]) + Size(ts[|ts| - 1])
  }

  /** The two per-node invariants: `degree` counts the children and no child
      has a key below its parent's. */
  predicate LocallyOrdered(t: Tree) {
    && t.degree == |t.children|
    && forall i :: 0 <= i < |t.children| ==> t.key <= t.children[i].key
  }

  /** Every node of the tree is locally ordered. */
  predicate WellFormed(t: Tree)
    decreases t
  {
    && LocallyOrdered(t)
    && forall i :: 0 <= i < |t.children| ==> WellFormed(t.children[i])
  }

  predicate ForestWF(ts: seq<Tree>) {
    forall i :: 0 <= i < |ts| ==> WellFormed(ts[i])
  }

  /** The ring's representative holds its least key: for the root ring this
      is "`min` is the least root". */
  predicate MinFirst(ts: seq<Tree>) {
    forall i :: 0 <= i < |ts| ==> ts[0].key <= ts[i].key
  }

  /** No two trees of the ring have the same degree. */
  predicate DistinctDegrees(ts: seq<Tree>) {
    forall i, j :: 0 <= i < j < |ts| ==> ts[i].degree != ts[j].degree
  }

  /** Cancellation of a middle term between two multiset equations. */
  lemma MultisetChain(a: multiset<Key>, b: multiset<Key>, x: multiset<Key>, y: multiset<Key>,
                      g: multiset<Key>, t: multiset<Key>)
    requires a + x == b + y && y + g == x + t
    ensures a + g == b + t
  {
    forall k ensures (a + g)[k] == (b + t)[k] {
      assert (a + x)[k] == (b + y)[k];
      assert (y + g)[k] == (x + t)[k];
    }
  }

  lemma {:induction false} ForestKeysAppend(a: seq<Tree>, b: seq<Tree>)
    ensures ForestKeys(a + b) == ForestKeys(a) + ForestKeys(b)
    decreases |b|
  {
    if b == [] {
      assert a + b == a;
    } else {
      var b' := b[..|b| - 1];
      assert (a + b)[..|a + b| - 1] == a + b';
      assert (a + b)[|a + b| - 1] == b[|b| - 1];
      ForestKeysAppend(a, b');
    }
  }

  lemma ForestKeysCons(x: Tree, rest: seq<Tree>)
    ensures ForestKeys([x] + rest) == Keys(x) + ForestKeys(rest)
  {
    ForestKeysAppend([x], rest);
    assert [x][..0] == [];
  }

  lemma ForestKeysSnoc(rest: seq<Tree>, x: Tree)
    ensures ForestKeys(rest + [x]) == ForestKeys(rest) + Keys(x)
  {
    assert (rest + [x])[..|rest|] == rest;
  }

  /** Exchanging one key for another: `b` holds `x`, and `a` is `b` with
      that occurrence of `x` traded for `y`. */
  lemma MultisetSwap(a: multiset<Key>, b: multiset<Key>, x: Key, y: Key)
    requires a + multiset{x} == b + multiset{y} && x in b
    ensures a == b - multiset{x} + multiset{y}
  {
    forall k ensures a[k] == (b - multiset{x} + multiset{y})[k] {
      assert (a + multiset{x})[k] == (b + multiset{y})[k];
    }
  }

  /** Putting back a removed occurrence restores the multiset. */
  lemma MultisetPutBack(c: multiset<Key>, x: Key)
    requires x in c
    ensures multiset{x} + (c - multiset{x}) == c
    ensures forall y :: y in c - multiset{x} ==> y in c
  {
  }

  lemma ForestWFAppend(a: seq<Tree>, b: seq<Tree>)
    requires ForestWF(a) && ForestWF(b)
    ensures ForestWF(a + b)
  {
    forall i | 0 <= i < |a + b| ensures WellFormed((a + b)[i]) {
      if i < |a| {
        assert (a + b)[i] == a[i];
      } else {
        assert (a + b)[i] == b[i - |a|];
      }
    }
  }

  /** Replacing a tree of a well-formed ring by a well-formed one. */
  lemma ForestWFUpdate(ts: seq<Tree>, i: nat, t: Tree)
    requires ForestWF(ts) && i < |ts| && WellFormed(t)
    ensures ForestWF(ts[i := t])
  {
  }

  /** A key lies in a ring exactly when it lies in its first tree or in the rest. */
  lemma ForestKeysSplitFirst(ts: seq<Tree>, k: Key)
    requires ts != []
    ensures k in ForestKeys(ts) <==> k in Keys(ts[0]) || k in ForestKeys(ts[1..])
  {
    assert ts == [ts[0]] + ts[1..];
    ForestKeysCons(ts[0], ts[1..]);
  }

  /** A ring split around its tree number `i`. */
  lemma SplitAround(ts: seq<Tree>, i: nat)
    requires i < |ts|
    ensures ts == ts[..i] + [ts[i]] + ts[i + 1..]
  {
    assert ts[..i + 1] == ts[..i] + [ts[i]];
    assert ts == ts[..i + 1] + ts[i + 1..];
  }

  /** Replacing one tree of a ring exchanges its keys for the new tree's. */
  lemma ForestKeysUpdate(ts: seq<Tree>, i: nat, x: Tree)
    requires i < |ts|
    ensures ForestKeys(ts[i := x]) + Keys(ts[i]) == ForestKeys(ts) + Keys(x)
  {
    SplitAround(ts, i);
    SplitAround(ts[i := x], i);
    assert ts[i := x][..i] == ts[..i] && ts[i := x][i + 1..] == ts[i + 1..];
    ForestKeysAppend(ts[..i] + [ts[i]], ts[i + 1..]);
    ForestKeysAppend(ts[..i] + [x], ts[i + 1..]);
    ForestKeysSnoc(ts[..i], ts[i]);
    ForestKeysSnoc(ts[..i], x);
  }

  /** Removing one tree of a ring removes exactly its keys. */
  lemma ForestKeysRemove(ts: seq<Tree>, i: nat)
    requires i < |ts|
    ensures ForestKeys(ts[..i] + ts[i + 1..]) + Keys(ts[i]) == ForestKeys(ts)
  {
    var a, x, b := ts[..i], ts[i], ts[i + 1..];
    SplitAround(ts, i);
    ForestKeysAppend(a + [x], b);
    ForestKeysAppend(a, b);
    ForestKeysSnoc(a, x);
    var fa, fb := ForestKeys(a), ForestKeys(b);
    assert fa + fb + Keys(x) == fa + Keys(x) + fb;
  }

  /** Reading a ring from another representative keeps its keys. */
  lemma ForestKeysRotate(ts: seq<Tree>, i: nat)
    requires i <= |ts|
    ensures ForestKeys(ts[i..] + ts[..i]) == ForestKeys(ts)
  {
    assert ts == ts[..i] + ts[i..];
    ForestKeysAppend(ts[..i], ts[i..]);
    ForestKeysAppend(ts[i..], ts[..i]);
  }

  /** The node count is the number of stored keys. */
  lemma {:induction false} SizeIsKeyCount(t: Tree)
    ensures |Keys(t)| == Size(t)
    decreases t
  {
    ForestSizeIsKeyCount(t.children);
  }

  lemma {:induction false} ForestSizeIsKeyCount(ts: seq<Tree>)
    ensures |ForestKeys(ts)| == ForestSize(ts)
    decreases ts
  {
    if ts != [] {
      ForestSizeIsKeyCount(ts[..|ts| - 1]);
      SizeIsKeyCount(ts[|ts| - 1]);
    }
  }

  /** Heap order: a well-formed tree holds no key below its root's. */
  lemma {:induction false} KeysAbove(t: Tree, m: Key)
    requires WellFormed(t) && m <= t.key
    ensures forall k :: k in Keys(t) ==> m <= k
    decreases t
  {
    ForestKeysAbove(t.children, m);
  }

  lemma {:induction false} ForestKeysAbove(ts: seq<Tree>, m: Key)
    requires forall i :: 0 <= i < |ts| ==> WellFormed(ts[i]) && m <= ts[i].key
    ensures forall k :: k in ForestKeys(ts) ==> m <= k
    decreases ts
  {
    if ts != [] {
      ForestKeysAbove(ts[..|ts| - 1], m);
      KeysAbove(ts[|ts| - 1], m);
    }
  }

  /** A key of a ring's root is one of the ring's keys. */
  lemma RootKeyIn(ts: seq<Tree>, i: nat)
    requires i < |ts|
    ensures ts[i].key in ForestKeys(ts)
  {
    ForestKeysRemove(ts, i);
  }

  /** A ring holds no key exactly when it holds no tree. */
  lemma ForestKeysEmpty(ts: seq<Tree>)
    ensures ForestKeys(ts) == multiset{} <==> ts == []
  {
    if ts != [] {
      RootKeyIn(ts, 0);
    }
  }

  /** In a well-formed ring whose representative is its least root, that
      representative holds the least key of the whole forest. */
  lemma MinFirstIsLeast(ts: seq<Tree>)
    requires ForestWF(ts) && MinFirst(ts) && ts != []
    ensures ts[0].key in ForestKeys(ts)
    ensures forall k :: k in ForestKeys(ts) ==> ts[0].key <= k
  {
    RootKeyIn(ts, 0);
    ForestKeysAbove(ts, ts[0].key);
  }

  /** Splices `t` into a ring to the left of its representative and makes
      `t` the representative when its key is strictly smaller: the step
      shared by `insert` (fib_heaps.cpp:75-85), the child splice of
      `fib_heap_link` (185-194) and the root-list rebuild of `consolidate`
      (157-168). */
  function SpliceMin(ring: seq<Tree>, t: Tree): (r: seq<Tree>)
    ensures |r| == |ring| + 1
    ensures forall u :: u in r <==> u == t || u in ring
    ensures ForestKeys(r) == ForestKeys(ring) + Keys(t)
    ensures r[0].key == if ring == [] || t.key < ring[0].key then t.key else ring[0].key
    ensures r[0] == if ring == [] || t.key < ring[0].key then t else ring[0]
    ensures r == [t] + ring || r == ring + [t]
    ensures MinFirst(ring) ==> MinFirst(r)
  {
    if ring == [] then
      [t]
    else if t.key < ring[0].key then
      ForestKeysCons(t, ring);
      [t] + ring
    else
      ForestKeysSnoc(ring, t);
      ring + [t]
  }
}
